=== FILE: README.md ===
# Hierarchy and ordering engine of the 5am todo app, in Dafny

5am is a terminal todo list. Each task record has:

- an id, a text, and a creation timestamp;
- a status (todo or done);
- an optional parent id, which makes the tasks a forest;
- a real-valued sort key;
- an optional priority.

This project models the part of `main.py` that turns the records into the
indented list on screen. It also models the plans that change the parent
links when the user inserts or moves a task:

- **Display list.** `build_display_items` has two views:
  - a flat priority view, shown on the todo tab when priority order is on;
  - otherwise a depth-first walk of the parent/child forest. Roots and
    siblings are ordered by creation: timestamp, then id.
- **Descendant test.** `is_descendant` follows parent links upwards.
- **Sort keys.** `last_descendant_index`, `sort_order_after_subtree`,
  `sort_order_after_index` and `sort_order_before_index` choose a key for an
  entry placed after a subtree or before an entry.
- **Insert plans.** The new child, parent and sibling commands build a
  pending task. Submitting the input box stores that task as a new record.
  For a new parent, the highlighted task is then re-parented under the new
  record.
- **Moves.** `perform_move` turns a pending move plus the highlighted
  target into parent and key writes.

Modules:

| module | file | contents |
|---|---|---|
| `Wrappers` | wrappers.dfy | `Option` |
| `Records` | records.dfy | the task record, list entries (record + depth), the id-to-parent table of a list, lookup by id |
| `Ordering` | ordering.dfy | the creation and priority orders, filtering, a proved insertion sort |
| `Lineage` | lineage.dfy | parent tables, ancestors, cycles, the descendant test, and when a re-parenting keeps the table acyclic |
| `SortKeys` | sort_keys.dfy | subtree ends and key choice |
| `TreeWalk` | tree_walk.dfy | roots, child groups and the recursive walk with its invariants |
| `TreeView` | tree_view.dfy | the tree view as a whole: its shape, which records it shows, and that its links are acyclic |
| `Display` | display.dfy | the flat view and the choice between the two views |
| `Planner` | planner.dfy | insert plans, submit, moves, and a move that closes a cycle |

The database is abstracted in two ways:

- A list of records stands for a read of one status.
- A parent table `map<int, Option<int>>` stands for the stored parent
  column.

A write is a `SetParent` or a `SetKey` on one id. Applying writes to the
table shows what a plan does to the forest.

## Model

| member | source | states |
|---|---|---|
| Records.ParentMapLookup | main.py:740 | with distinct ids, the id-to-parent dictionary of a list maps every entry's id to that entry's own parent |
| Records.FindIndex | main.py:512-518 | the lookup finds the first entry with the id, and finds nothing exactly when no entry has it |
| Ordering.Filter | main.py:436 | the kept records are exactly the input records that meet the condition |
| Ordering.FilterCounts | main.py:436 | filtering keeps every kept record as often as it occurs and drops all others |
| Ordering.Sort | main.py:444 | sorting yields a sequence ordered by the key and a permutation of the input |
| Ordering.SortKeepsDistinct | main.py:458-460 | sorting a list with distinct ids keeps the ids distinct |
| Lineage.IsDescendant | main.py:520-531 | "descends" means the ancestor is on the candidate's parent chain; "unrelated" means it is not; the search meets a repeated id only if the table has a cycle |
| Lineage.IsDescendantOnAcyclic | main.py:520-531 | on an acyclic parent table the test always ends, and answers "descends" exactly when the ancestor is on the candidate's chain |
| Lineage.NotOwnDescendant | main.py:520-531 | on an acyclic table no task is its own descendant |
| Lineage.ReparentKeepsAcyclic | main.py:754-757 | giving a task a new parent that is neither the task nor below it keeps the table acyclic |
| Lineage.ReparentBesideKeepsAcyclic | main.py:758-761 | giving a task the parent of a target that is not below it keeps the table acyclic |
| Lineage.SpliceAboveKeepsAcyclic | main.py:762-766 | putting a task in a target's place and the target under it keeps the table acyclic when the target is not below the task |
| Lineage.DetachKeepsAcyclic | main.py:742-747 | moving a descendant up to its ancestor's parent keeps the table acyclic |
| Lineage.FreshNotOnChain | main.py:877-889 | a newly created id is nobody's ancestor |
| SortKeys.SortOrderAfterIndex | main.py:821-828 | the key is above the entry's key; it is the midpoint below a larger next key; otherwise it is the entry's key plus one |
| SortKeys.SortOrderBeforeIndex | main.py:830-837 | the key is below the entry's key; it is the midpoint above a smaller previous key; otherwise it is the entry's key minus one |
| SortKeys.LastDescendantIndex | main.py:533-542 | the result is the last index of the run of deeper entries that directly follows the entry |
| SortKeys.LastDescendantUnique | main.py:533-542 | any index with that run property is the result, so the result is determined by its description |
| SortKeys.ScanSubtree | main.py:650-654 | the scan written into the new child and new sibling commands finds the same subtree end as `last_descendant_index` |
| SortKeys.SortOrderAfterSubtree | main.py:544-548 | the key is above the key of the subtree's last entry, and below the next entry's key when that is larger |
| SortKeys.MidpointRunStaysBetween | main.py:650-655 | in the tree view, repeated new-child commands on one entry give keys strictly between the key where the run starts and the key of the entry after the subtree, each above the one before. Each new child is the newest and so comes last in the subtree (main.py:455-460), so the next key is taken after it |
| TreeWalk.RootsFacts | main.py:446-458 | the roots are exactly the records whose parent is absent or not in the list, with distinct ids, in creation order |
| TreeWalk.ChildrenFacts | main.py:447-460 | a child group is exactly the records naming that parent, with distinct ids, in creation order |
| TreeWalk.ChildMapTable | main.py:447-451 | the children table holds each record's child group under its id |
| TreeWalk.RootDepthBound | main.py:464-467 | any record the walk can reach sits fewer levels deep than there are records, so the recursion ends |
| TreeWalk.WalkNode | main.py:464-467 | a node's walk starts with the node, has everything below it one or more levels deeper, places each entry at its depth under the root, repeats no record, and shows every record that leads up to the node |
| TreeWalk.WalkForest | main.py:466-470 | walking a sibling group in order starts at the first sibling, keeps siblings in creation order, puts parents before children, repeats nothing, and shows every record leading into the group |
| TreeView.BuildTree | main.py:446-471 | the tree view lists only input records, each at most once; depth 0 holds exactly the roots; every deeper entry follows its parent; siblings appear in creation order |
| TreeView.DepthZeroIffRoot | main.py:449-453 | in the tree view, an entry has depth 0 exactly when its record is a root |
| TreeView.BuildTreeComplete | main.py:446-471 | the tree view shows a record exactly when its parent chain ends at a root of the list |
| TreeView.BuildTreeSkipsCycles | main.py:446-471 | a record on a parent cycle never appears in the tree view |
| TreeView.BuildTreeLinksAcyclic | main.py:740 | the id-to-parent dictionary built from the tree view's entries has distinct keys and no cycle |
| Display.FlatView | main.py:434-445 | the flat view puts everything at depth 0, orders by (priority or 99, timestamp, id), and holds each kept record as often as the input does |
| Display.FlatMembers | main.py:434-436 | a record is in the flat view exactly when it is in the input and passes the prioritised-only filter |
| Display.FlatUnprioritizedLast | main.py:438-444 | when priorities are below 99, no task without a priority comes before a task with one |
| Display.DisplayItems | main.py:429-471 | the displayed list holds input records with distinct ids. The flat view keeps exactly the filtered records at depth 0, ordered by (priority or 99, timestamp, id). The tree view keeps parents first, siblings in creation order and acyclic links, and shows a record exactly when its parent chain reaches a root |
| Planner.PlanInsert | main.py:638-721 | a task is planned exactly when an entry is highlighted. It takes that entry's status. A child gets the entry as parent; a sibling and a parent get the entry's parent. Only a new parent re-parents the entry. The key lies after the entry's subtree, or before the entry for a parent |
| Planner.Submit | main.py:876-889 | submitting adds exactly the new id with the planned parent, re-parents only the named task under the new id, and leaves every other parent unchanged. A named task that was deleted meanwhile changes nothing |
| Planner.SubmitKeepsAcyclic | main.py:876-889 | submitting a plan before the store changes (the list it was read from still matches the store) keeps an acyclic store acyclic |
| Planner.SubmitGuarded | main.py:876-889 | the corrected submit stores the new task under the planned parent, and hangs the named task under it exactly when that closes no loop; nothing else changes |
| Planner.SubmitGuardedKeepsAcyclic | main.py:876-889 | the corrected submit keeps an acyclic store acyclic for every plan, however stale |
| Planner.SubmitGuardedAgrees | main.py:876-889 | on a plan read from the current store the corrected submit does exactly what main.py does |
| Planner.StaleMoves | main.py:736-766 | with a new-parent plan pending on a child, moving the child beside its parent and then the parent under the child are both allowed and leave the store acyclic |
| Planner.StalePlanClosesCycle | main.py:884-889 | the new-parent plan made before those moves, submitted after them, closes a parent cycle, while the corrected submit does not |
| Lineage.HangUnderFreshKeepsAcyclic | main.py:877-889 | storing a new task under a parent and hanging a task under the new one stays acyclic when that parent is neither the hung task nor below it |
| Planner.PlanMove | main.py:736-766 | the same task or differing statuses give no writes; writes touch only source and target; when the target lies below the source only the target may move, and only for a sibling request |
| Planner.PerformMove | main.py:723-768 | no pending move, a different list, a pending task missing from the list, or no highlight gives no writes; otherwise writes touch only the pending task and the highlighted one |
| Planner.MoveOnView | main.py:723-768 | the move as written, with the descendant test on the visible entries' dictionary: the same guards and the same two tasks touched as the corrected move |
| Planner.PlanMoveRespectsDescent | main.py:741-766 | on the store's table, a target below the source is only detached (sibling) or left alone; any other target makes the source move |
| Planner.MoveChildEffect | main.py:754-757 | a child move onto a target not below the source hangs the source under the target, keys it after the target's subtree, and changes nothing else in the parent table or the target's key |
| Planner.MoveSiblingEffect | main.py:758-761 | a sibling move onto a target not below the source gives the source the target's parent, keys it after the target's subtree, and changes nothing else |
| Planner.MoveParentEffect | main.py:762-766 | a parent move onto a target not below the source gives the source the target's parent and a key just before the target, then hangs the target under the source; nothing else changes |
| Planner.MoveDetachEffect | main.py:741-747 | a sibling move onto a target below the source lifts the target to the source's parent, keys it after the source's subtree, and leaves the source alone |
| Planner.PlanMoveKeepsAcyclic | main.py:736-766 | every move planned on the store's parent table leaves that table acyclic |
| Planner.MoveKeepsAcyclic | main.py:723-768 | every move request, applied to an acyclic store whose table the list agrees with, leaves it acyclic |
| Planner.TreeViewDescentSettles | main.py:520-531 | on a tree view's dictionary the descendant test always terminates |
| Planner.ViewMoveCanCloseCycle | main.py:740-757 | on the todo tab with a done middle task, the move as written makes a parent cycle in the store; the same move checked against the store makes no writes |
| Planner.MoveOnViewCycle | main.py:740-757 | on any list of those todo entries that shows the root, the as-written move closes the cycle |

## Left out

- Reading and writing the SQLite store, the widgets, focus, placeholders and
  task text are not modelled. A list of records stands for each read, and a
  parent table with key writes stands for the store.
- The done-today filter of the done tab (main.py:430-431) is not modelled.
  It only chooses which records are read; the records are a parameter here.
- The dispatch at the top of each insert command (main.py:639-641) is not
  modelled. A pending move sends the command to `perform_move`, so the
  caller picks `Planner.PerformMove` or `Planner.PlanInsert`.
- Planner.PlanMove: when the descendant test revisits an id, the Python loop
  never ends. The model returns no writes, because a model must terminate.
  `Planner.TreeViewDescentSettles` shows this cannot happen on a tree view's
  dictionary.
- Timestamps are ISO strings in main.py. They are modelled as integers,
  which keep only their order. Sort keys are floats, modelled as reals, so
  rounding and running out of float precision after many midpoints are not
  modelled.
- Ids are distinct (`Records.DistinctIds`) because `todo_id` is the table's
  primary key. With repeated ids the Python walk can recurse until CPython
  raises `RecursionError`.
- TreeWalk.WalkNode: returns the whole subtree at any depth. The recursive
  Python `walk` (main.py:464-467) raises `RecursionError` at CPython's
  recursion limit, so a legal tree about 1000 levels deep is not displayed.
  The model has no recursion limit.
- SortKeys.MidpointRunStaysBetween: holds in the tree view only. In the flat
  priority view every entry is at depth 0, so a subtree is its entry alone
  (`SortKeys.FlatSubtreeIsEntry`). A new child has no priority, so it is
  hidden or listed last, and the entry after the parent stays the same. Every
  later new-child command on that entry then gets the same key.
- Planner.SubmitKeepsAcyclic: holds only for a plan submitted before the
  store changes. main.py keeps `pending_task` across moves, and a stale
  new-parent plan can then close a cycle (see "## Findings" and
  `Planner.StalePlanClosesCycle`).
- Planner.Submit: the new id is a parameter that is not yet in the table.
  The store's autoincrement is not modelled, and only the parent column is
  tracked. The status and key of the new row are in the planned task.
- The status field of the pending move and the list widget's identity are
  reduced to a list id.
- Key writes change the stored sort key only. The tree orders siblings by
  creation (main.py:455-460), so these keys do not change the displayed
  order. The model keeps them as `SetKey` writes and proves where they fall
  between neighbouring keys.
- Python's highlight index is never negative here (`nat`), as in the list
  widget.

Three behaviours of main.py worth knowing:

- The tree view orders roots and siblings by (timestamp, id), not by sort
  key (main.py:455-460).
- Records on a parent cycle are silently dropped from the tree view
  (`TreeView.BuildTreeSkipsCycles`).
- When the previous entry's key is not below the entry's key, the
  before-key is the entry's own key minus one (main.py:834-835).

## Findings

| source | as written | input that shows it | evidently intended | confidence | as-written member | corrected member |
|---|---|---|---|---|---|---|
| main.py:740-741 | The descendant test walks the parent dictionary of the visible entries only. A done task in the middle of a chain hides the link. (`action_flip_state` at main.py:596-604 changes one task's status without its children.) | Tasks 1 "plan" (todo, root), 2 "draft" (done, child of 1), 3 "review" (todo, child of 2). On the todo tab, with a pending move of 1, highlight 3 and ask for child. The view's dictionary shows 3 with an unknown parent, so 3 counts as not below 1, and 1 is re-parented under 3: 1 → 3 → 2 → 1. | A move never makes a task its own ancestor. The test should follow parents through the whole store. | not executed; high | Planner.MoveOnView | Planner.PerformMove |
| main.py:884-889 | The submit hangs the planned task under the new record without checking the store. A "new parent" plan stays pending while the user moves tasks (`pending_task` is cleared only at main.py:616, 775, 892 and 906). | Task 1 (root) with child 2. Highlight 2 and ask for a new parent: the plan is parent 1, hang 2. Leave the input box with Tab, which keeps the plan. Move 2 as sibling of 1, then move 1 as child of 2. Submit: the new task 3 gets parent 1 and 2 gets parent 3, so 2 → 3 → 1 → 2. | A submit never makes a task its own ancestor: the hang step is skipped when the planned parent is the hung task or lies below it. | not executed; medium | Planner.StalePlanClosesCycle | Planner.SubmitGuarded |

=== FILE: display.dfy ===
/**
 * `build_display_items` (main.py:429-471): the entries the list widget shows
 * for one tab. The records the store returns for the tab (all todos, all done
 * items, or the done items of today) are a parameter. On the todo tab with
 * priority order switched on, the view is flat: every record at depth 0,
 * ordered by `(priority or 99, timestamp, id)`, optionally keeping only the
 * prioritised ones. Everywhere else it is the tree of `TreeView.BuildTree`.
 */
module Display {
  import opened Records
  import opened Ordering
  import opened Lineage
  import opened TreeWalk
  import opened TreeView

  /** The tab a list belongs to: `status` is "todo" or "done". */
  datatype Tab = TodoTab | DoneTab

  /** The two view toggles `build_display_items` reads. */
  datatype ViewOptions = ViewOptions(priorityOrder: bool, prioritizedOnly: bool)

  predicate IsFlat(tab: Tab, opts: ViewOptions)
  {
    tab == TodoTab && opts.priorityOrder
  }

  /** Whether the flat view keeps `r`. */
  predicate FlatKeeps(prioritizedOnly: bool, r: Record)
  {
    !prioritizedOnly || r.priority.Some?
  }

  /** The flat branch (main.py:434-445): a stable sort by priority key of the
      kept records, each paired with depth 0. */
  function FlatView(recs: seq<Record>, prioritizedOnly: bool): (out: seq<Item>)
    ensures forall j :: 0 <= j < |out| ==> out[j].depth == 0
    ensures Sorted(ByPriority, RecordsOf(out))
    ensures forall x :: multiset(RecordsOf(out))[x] == if FlatKeeps(prioritizedOnly, x) then multiset(recs)[x] else 0
  {
    var kept := if prioritizedOnly then Filter(recs, Prioritized) else recs;
    FilterCounts(recs, Prioritized);
    var ordered := Sort(ByPriority, kept);
    var out := seq(|ordered|, i requires 0 <= i < |ordered| => Item(ordered[i], 0));
    assert RecordsOf(out) == ordered;
    out
  }

  /** The flat view lists exactly the kept records. */
  lemma FlatMembers(recs: seq<Record>, prioritizedOnly: bool)
    ensures forall r :: r in RecordsOf(FlatView(recs, prioritizedOnly)) <==> r in recs && FlatKeeps(prioritizedOnly, r)
  {
    var s := RecordsOf(FlatView(recs, prioritizedOnly));
    forall r ensures r in s <==> r in recs && FlatKeeps(prioritizedOnly, r) {
      assert r in s <==> r in multiset(s);
      assert r in recs <==> r in multiset(recs);
    }
  }

  lemma FlatKeepsDistinct(recs: seq<Record>, prioritizedOnly: bool)
    requires DistinctIds(recs)
    ensures DistinctIds(RecordsOf(FlatView(recs, prioritizedOnly)))
  {
    var kept := if prioritizedOnly then Filter(recs, Prioritized) else recs;
    FilterKeepsDistinct(recs, Prioritized);
    SortKeepsDistinct(ByPriority, kept);
    assert RecordsOf(FlatView(recs, prioritizedOnly)) == Sort(ByPriority, kept);
  }

  /** With priorities below the 99 that stands in for "none", unprioritised
      records come after every prioritised one. */
  lemma FlatUnprioritizedLast(recs: seq<Record>, prioritizedOnly: bool)
    requires forall r :: r in recs && r.priority.Some? ==> r.priority.value < 99
    ensures forall i, j :: 0 <= i < j < |FlatView(recs, prioritizedOnly)| ==>
      !(FlatView(recs, prioritizedOnly)[i].rec.priority.None? && FlatView(recs, prioritizedOnly)[j].rec.priority.Some?)
  {
    var out := FlatView(recs, prioritizedOnly);
    var s := RecordsOf(out);
    forall i, j | 0 <= i < j < |out| ensures !(out[i].rec.priority.None? && out[j].rec.priority.Some?) {
      assert KeyLe(ByPriority, s[i], s[j]);
      if out[j].rec.priority.Some? {
        assert s[j] in multiset(s);
        assert s[j] in recs;
      }
    }
  }

  /** The tree view shows a record exactly when its chain reaches a root. */
  lemma TreeShowsRooted(recs: seq<Record>)
    requires DistinctIds(recs)
    ensures forall r :: r in recs ==> (Shows(BuildTree(recs), r) <==> Rooted(recs, r))
  {
    forall r | r in recs ensures Shows(BuildTree(recs), r) <==> Rooted(recs, r) {
      BuildTreeComplete(recs, r);
    }
  }

  /** What the widget is given for one tab. */
  function DisplayItems(tab: Tab, opts: ViewOptions, recs: seq<Record>): (out: seq<Item>)
    requires DistinctIds(recs)
    ensures forall r :: r in RecordsOf(out) ==> r in recs
    ensures DistinctIds(RecordsOf(out))
    ensures IsFlat(tab, opts) ==> forall j :: 0 <= j < |out| ==> out[j].depth == 0
    ensures IsFlat(tab, opts) ==> forall r :: r in recs ==> (r in RecordsOf(out) <==> FlatKeeps(opts.prioritizedOnly, r))
    ensures IsFlat(tab, opts) ==> Sorted(ByPriority, RecordsOf(out))
    ensures !IsFlat(tab, opts) ==> ParentsFirst(out, 0) && SiblingsOrdered(out, 0)
    ensures !IsFlat(tab, opts) ==> Acyclic(ParentMap(RecordsOf(out)))
    ensures !IsFlat(tab, opts) ==> forall r :: r in recs ==> (Shows(out, r) <==> Rooted(recs, r))
  {
    if IsFlat(tab, opts) then
      var out := FlatView(recs, opts.prioritizedOnly);
      FlatKeepsDistinct(recs, opts.prioritizedOnly);
      FlatMembers(recs, opts.prioritizedOnly);
      out
    else
      var out := BuildTree(recs);
      BuildTreeLinksAcyclic(recs);
      TreeShowsRooted(recs);
      out
  }
}

=== FILE: lineage.dfy ===
/**
 * Parent links and the ancestor walk of `is_descendant` (main.py:520-531).
 *
 * A `Links` map is the `parent_by_id` dictionary: each known id maps to its
 * parent id or `None`. `Up` is `parent_by_id.get`, which also answers `None`
 * for an id that is not a key, and `Anc(m, x, k)` is the value reached after
 * k such steps. The lemmas at the end show which re-parentings keep the links
 * free of cycles; the move and insert planners are built on them.
 */
module Lineage {
  import opened Wrappers

  type Links = map<int, Option<int>>

  /** `parent_by_id.get(x)`, with `None` staying `None`. */
  function Up(m: Links, x: Option<int>): Option<int>
  {
    match x
    case None => None
    case Some(v) => if v in m then m[v] else None
  }

  /** The value reached from `x` after `k` parent steps. */
  function Anc(m: Links, x: Option<int>, k: nat): Option<int>
  {
    if k == 0 then x else Up(m, Anc(m, x, k - 1))
  }

  /** `a` lies on the strict parent chain of `c`. */
  ghost predicate OnChain(m: Links, c: int, a: int)
  {
    exists k: nat :: 1 <= k && Anc(m, Some(c), k) == Some(a)
  }

  /** No id is its own strict ancestor. */
  ghost predicate Acyclic(m: Links)
  {
    forall x: int, k: nat :: 1 <= k ==> Anc(m, Some(x), k) != Some(x)
  }

  /** Nothing links to `n` and `n` has no entry: a store id never handed out. */
  ghost predicate Fresh(m: Links, n: int)
  {
    n !in m && forall y :: y in m ==> m[y] != Some(n)
  }

  lemma {:induction false} AncCompose(m: Links, x: Option<int>, a: nat, b: nat)
    ensures Anc(m, x, a + b) == Anc(m, Anc(m, x, a), b)
    decreases b
  {
    if b > 0 {
      AncCompose(m, x, a, b - 1);
    }
  }

  lemma {:induction false} AncOfNone(m: Links, k: nat)
    ensures Anc(m, None, k) == None
  {
    if k > 0 {
      AncOfNone(m, k - 1);
    }
  }

  /** Once the walk leaves the keys of `m` it is `None` from the next step on. */
  lemma {:induction false} LeftStaysNone(m: Links, x: Option<int>, i: nat, j: nat)
    requires Anc(m, x, i).None? || Anc(m, x, i).value !in m
    requires i < j
    ensures Anc(m, x, j) == None
    decreases j
  {
    if j > i + 1 {
      LeftStaysNone(m, x, i, j - 1);
    }
  }

  datatype Verdict = Descends | Unrelated | Loops

  /**
   * The `while current is not None` loop of `is_descendant`. `seen` holds the
   * ids already stepped over; meeting one again means the chain has closed a
   * cycle that does not contain `a`, where the Python loop never ends: the
   * model answers `Loops` instead.
   */
  function Climb(m: Links, cur: Option<int>, a: int, seen: set<int>): Verdict
    decreases m.Keys - seen
  {
    match cur
    case None => Unrelated
    case Some(x) =>
      if x == a then Descends
      else if x in seen then Loops
      else if x !in m then Unrelated
      else Climb(m, m[x], a, seen + {x})
  }

  /** `is_descendant(candidate_id, ancestor_id, parent_by_id)`. */
  function IsDescendant(c: int, a: int, m: Links): (v: Verdict)
    ensures v == Descends ==> OnChain(m, c, a)
    ensures v == Unrelated ==> !OnChain(m, c, a)
    ensures v == Loops ==> !Acyclic(m)
  {
    assert Anc(m, Some(c), 1) == Up(m, Some(c));
    ClimbSpec(m, c, a, 1, {});
    Climb(m, Up(m, Some(c)), a, {})
  }

  /** `v` was met within the first `k - 1` steps up from `c`. */
  ghost predicate MetBefore(m: Links, c: int, k: nat, v: int)
  {
    exists i: nat :: 1 <= i < k && Anc(m, Some(c), i) == Some(v)
  }

  lemma {:induction false} ClimbSpec(m: Links, c: int, a: int, k: nat, seen: set<int>)
    requires 1 <= k
    requires forall i: nat :: 1 <= i < k ==>
      Anc(m, Some(c), i).Some? && Anc(m, Some(c), i).value in m && Anc(m, Some(c), i) != Some(a)
    requires forall v :: v in seen ==> MetBefore(m, c, k, v)
    ensures Climb(m, Anc(m, Some(c), k), a, seen) == Descends ==> OnChain(m, c, a)
    ensures Climb(m, Anc(m, Some(c), k), a, seen) == Unrelated ==> !OnChain(m, c, a)
    ensures Climb(m, Anc(m, Some(c), k), a, seen) == Loops ==> !Acyclic(m)
    decreases m.Keys - seen
  {
    var cur := Anc(m, Some(c), k);
    if cur.None? || (cur.value != a && cur.value !in seen && cur.value !in m) {
      forall j: nat | 1 <= j ensures Anc(m, Some(c), j) != Some(a) {
        if j > k {
          LeftStaysNone(m, Some(c), k, j);
        }
      }
    } else if cur.value == a {
      assert Anc(m, Some(c), k) == Some(a);
    } else if cur.value in seen {
      var x := cur.value;
      assert MetBefore(m, c, k, x);
      var i :| 1 <= i < k && Anc(m, Some(c), i) == Some(x);
      AncCompose(m, Some(c), i, k - i);
      assert Anc(m, Some(x), k - i) == Some(x);
    } else {
      var x := cur.value;
      assert Anc(m, Some(c), k + 1) == m[x];
      var seen' := seen + {x};
      forall y | y in seen' ensures MetBefore(m, c, k + 1, y) {
        if y == x {
          assert Anc(m, Some(c), k) == Some(y);
        } else {
          assert MetBefore(m, c, k, y);
          var i :| 1 <= i < k && Anc(m, Some(c), i) == Some(y);
          assert 1 <= i < k + 1;
        }
      }
      ClimbSpec(m, c, a, k + 1, seen');
    }
  }

  /** On acyclic links the walk always returns, and it answers exactly the
      strict-ancestor question. */
  lemma IsDescendantOnAcyclic(c: int, a: int, m: Links)
    requires Acyclic(m)
    ensures IsDescendant(c, a, m) != Loops
    ensures IsDescendant(c, a, m) == Descends <==> OnChain(m, c, a)
  {
  }

  /** `is_descendant(x, x, m)` is false on acyclic links. */
  lemma NotOwnDescendant(x: int, m: Links)
    requires Acyclic(m)
    ensures IsDescendant(x, x, m) == Unrelated
  {
    IsDescendantOnAcyclic(x, x, m);
  }

  /** Changing the entry of `x` does not affect a walk that has not met `x`. */
  lemma {:induction false} AgreeAway(m: Links, x: int, p: Option<int>, z: Option<int>, n: nat)
    requires forall j :: 0 <= j < n ==> Anc(m, z, j) != Some(x)
    ensures Anc(m[x := p], z, n) == Anc(m, z, n)
  {
    if n > 0 {
      AgreeAway(m, x, p, z, n - 1);
    }
  }

  lemma FirstHit(m: Links, z: Option<int>, x: int, k: nat) returns (i: nat)
    ensures i <= k
    ensures forall j :: 0 <= j < i ==> Anc(m, z, j) != Some(x)
    ensures i < k ==> Anc(m, z, i) == Some(x)
  {
    i := 0;
    while i < k && Anc(m, z, i) != Some(x)
      invariant i <= k
      invariant forall j :: 0 <= j < i ==> Anc(m, z, j) != Some(x)
    {
      i := i + 1;
    }
  }

  lemma ReparentNoCycleAt(m: Links, x: int, p: Option<int>, y: int, k: nat)
    requires Acyclic(m)
    requires p != Some(x)
    requires p.Some? ==> !OnChain(m, p.value, x)
    requires 1 <= k
    ensures Anc(m[x := p], Some(y), k) != Some(y)
  {
    var m' := m[x := p];
    var i := FirstHit(m, Some(y), x, k);
    AgreeAway(m, x, p, Some(y), i);
    if i == k {
      assert Anc(m, Some(y), k) != Some(y);
    } else {
      assert Anc(m', Some(y), i + 1) == p;
      AncCompose(m', Some(y), i + 1, k - i - 1);
      var r := k - i - 1;
      match p
      case None =>
        AncOfNone(m', r);
      case Some(q) =>
        forall j | 0 <= j < r ensures Anc(m, Some(q), j) != Some(x) {
          if j >= 1 {
            assert !(1 <= j && Anc(m, Some(q), j) == Some(x));
          }
        }
        AgreeAway(m, x, p, Some(q), r);
        AncCompose(m, Some(q), r, i);
        if r + i >= 1 {
          assert !(1 <= r + i && Anc(m, Some(q), r + i) == Some(x));
        }
    }
  }

  /**
   * Giving `x` the parent `p` keeps the links acyclic when `p` is `None` or an
   * id other than `x` whose own chain does not reach `x`.
   */
  lemma ReparentKeepsAcyclic(m: Links, x: int, p: Option<int>)
    requires Acyclic(m)
    requires p != Some(x)
    requires p.Some? ==> !OnChain(m, p.value, x)
    ensures Acyclic(m[x := p])
  {
    var m' := m[x := p];
    forall y: int, k: nat | 1 <= k ensures Anc(m', Some(y), k) != Some(y) {
      ReparentNoCycleAt(m, x, p, y, k);
    }
  }

  /** Moving `s` next to `t` (taking `t`'s parent) is safe unless `t` descends
      from `s`. */
  lemma ReparentBesideKeepsAcyclic(m: Links, s: int, t: int)
    requires Acyclic(m)
    requires t in m
    requires !OnChain(m, t, s)
    ensures Acyclic(m[s := m[t]])
  {
    assert Anc(m, Some(t), 1) == m[t];
    match m[t]
    case None =>
      ReparentKeepsAcyclic(m, s, None);
    case Some(q) =>
      forall j: nat | 1 <= j ensures Anc(m, Some(q), j) != Some(s) {
        AncCompose(m, Some(t), 1, j);
        assert !(1 <= 1 + j && Anc(m, Some(t), 1 + j) == Some(s));
      }
      ReparentKeepsAcyclic(m, s, m[t]);
  }

  /**
   * Splicing `n` in above `t`: `n` takes `t`'s parent and then becomes `t`'s
   * parent. Safe when `t` does not descend from `n`.
   */
  lemma SpliceAboveKeepsAcyclic(m: Links, n: int, t: int)
    requires Acyclic(m)
    requires t in m
    requires n != t
    requires !OnChain(m, t, n)
    ensures Acyclic(m[n := m[t]][t := Some(n)])
  {
    var m1 := m[n := m[t]];
    ReparentBesideKeepsAcyclic(m, n, t);
    assert Anc(m, Some(t), 1) == m[t];
    forall j: nat | 1 <= j ensures Anc(m1, Some(n), j) != Some(t) {
      assert Anc(m1, Some(n), 1) == m[t];
      AncCompose(m1, Some(n), 1, j - 1);
      match m[t]
      case None =>
        AncOfNone(m1, j - 1);
      case Some(q) =>
        forall i | 0 <= i < j - 1 ensures Anc(m, Some(q), i) != Some(n) {
          AncCompose(m, Some(t), 1, i);
          assert !(1 <= 1 + i && Anc(m, Some(t), 1 + i) == Some(n));
        }
        AgreeAway(m, n, m[t], Some(q), j - 1);
        AncCompose(m, Some(t), 1, j - 1);
        assert Anc(m, Some(t), j) != Some(t);
    }
    ReparentKeepsAcyclic(m1, t, Some(n));
  }

  /** Re-hanging a descendant `t` of `s` under `s`'s parent is safe. */
  lemma DetachKeepsAcyclic(m: Links, s: int, t: int)
    requires Acyclic(m)
    requires s in m
    requires OnChain(m, t, s)
    ensures Acyclic(m[t := m[s]])
  {
    var k: nat :| 1 <= k && Anc(m, Some(t), k) == Some(s);
    AncCompose(m, Some(t), k, 1);
    assert Anc(m, Some(t), k + 1) != Some(t);
    match m[s]
    case None =>
      ReparentKeepsAcyclic(m, t, None);
    case Some(q) =>
      forall j: nat | 1 <= j ensures Anc(m, Some(q), j) != Some(t) {
        AncCompose(m, Some(t), k + 1, j);
        assert Anc(m, Some(t), k + 1 + j) != Some(t);
      }
      ReparentKeepsAcyclic(m, t, m[s]);
  }

  /**
   * Storing a fresh `n` under `p` and then hanging `r` under `n` keeps the
   * links acyclic when `p` is neither `r` nor below `r`: the chain from `n`
   * runs through `p` and never meets `r`.
   */
  lemma HangUnderFreshKeepsAcyclic(m: Links, n: int, p: Option<int>, r: int)
    requires Acyclic(m) && Fresh(m, n)
    requires p != Some(n) && r != n
    requires p != Some(r)
    requires p.Some? ==> !OnChain(m, p.value, r)
    ensures Acyclic(m[n := p])
    ensures Acyclic(m[n := p][r := Some(n)])
  {
    if p.Some? {
      FreshNotOnChain(m, n, p.value);
    }
    ReparentKeepsAcyclic(m, n, p);
    var m1 := m[n := p];
    forall k: nat | 1 <= k ensures Anc(m1, Some(n), k) != Some(r) {
      AncCompose(m1, Some(n), 1, k - 1);
      assert Anc(m1, Some(n), 1) == p;
      match p
      case None =>
        AncOfNone(m1, k - 1);
      case Some(q) =>
        forall j | 0 <= j < k - 1 ensures Anc(m, Some(q), j) != Some(n) {
          if j >= 1 {
            assert !(1 <= j && Anc(m, Some(q), j) == Some(n));
          }
        }
        AgreeAway(m, n, p, Some(q), k - 1);
        if k - 1 >= 1 {
          assert !(1 <= k - 1 && Anc(m, Some(q), k - 1) == Some(r));
        }
    }
    ReparentKeepsAcyclic(m1, r, Some(n));
  }

  /** A fresh id is on nobody's chain. */
  lemma FreshNotOnChain(m: Links, n: int, z: int)
    requires Fresh(m, n)
    ensures !OnChain(m, z, n)
  {
    forall k: nat | 1 <= k ensures Anc(m, Some(z), k) != Some(n) {
      var prev := Anc(m, Some(z), k - 1);
      if prev.Some? && prev.value in m {
        assert m[prev.value] != Some(n);
      }
    }
  }
}

=== FILE: ordering.dfy ===
/**
 * The two sort keys main.py uses and a stable sort over records.
 *
 * The tree view orders roots and sibling groups by `(timestamp, todo_id)`
 * (main.py:455-460); the flat priority view orders by
 * `(priority or 99.0, timestamp, todo_id)` (main.py:438-442). Python's
 * `sorted` and `list.sort` are stable; `Sort` below is an insertion sort that
 * places each record after every earlier record whose key is not larger, so it
 * is stable too.
 */
module Ordering {
  import opened Wrappers
  import opened Records

  datatype Order = ByCreation | ByPriority

  /** `float(priority)` for a prioritised record, 99.0 for one without. */
  function Rank(r: Record): real
  {
    match r.priority
    case Some(p) => p as real
    case None => 99.0
  }

  predicate CreationLe(a: Record, b: Record)
  {
    a.timestamp < b.timestamp || (a.timestamp == b.timestamp && a.id <= b.id)
  }

  /** Python's lexicographic comparison of the key tuples. */
  predicate KeyLe(o: Order, a: Record, b: Record)
  {
    match o
    case ByCreation => CreationLe(a, b)
    case ByPriority => Rank(a) < Rank(b) || (Rank(a) == Rank(b) && CreationLe(a, b))
  }

  lemma KeyLeTotal(o: Order, a: Record, b: Record)
    ensures KeyLe(o, a, b) || KeyLe(o, b, a)
  {
  }

  lemma KeyLeTransitive(o: Order, a: Record, b: Record, c: Record)
    requires KeyLe(o, a, b) && KeyLe(o, b, c)
    ensures KeyLe(o, a, c)
  {
  }

  predicate Sorted(o: Order, s: seq<Record>)
  {
    forall i, j :: 0 <= i < j < |s| ==> KeyLe(o, s[i], s[j])
  }

  /** The conditions main.py selects records by: a parent that is absent or
      not among `ids` (a root), a given parent id (a child), or a priority. */
  datatype Keep = RootAmong(ids: set<int>) | ChildOf(parent: int) | Prioritized

  predicate Keeps(keep: Keep, r: Record)
  {
    match keep
    case RootAmong(ids) => r.parentId.None? || r.parentId.value !in ids
    case ChildOf(p) => r.parentId == Some(p)
    case Prioritized => r.priority.Some?
  }

  /** A list comprehension with a condition: the kept records, in order. */
  function Filter(s: seq<Record>, keep: Keep): (r: seq<Record>)
    ensures forall x :: x in r <==> x in s && Keeps(keep, x)
  {
    if s == [] then []
    else
      var rest := Filter(s[1..], keep);
      assert s == [s[0]] + s[1..];
      if Keeps(keep, s[0]) then [s[0]] + rest else rest
  }

  lemma {:induction false} FilterCounts(s: seq<Record>, keep: Keep)
    ensures forall x :: multiset(Filter(s, keep))[x] == if Keeps(keep, x) then multiset(s)[x] else 0
  {
    if s != [] {
      FilterCounts(s[1..], keep);
      assert s == [s[0]] + s[1..];
      assert multiset(s) == multiset{s[0]} + multiset(s[1..]);
    }
  }

  lemma {:induction false} FilterKeepsDistinct(s: seq<Record>, keep: Keep)
    requires DistinctIds(s)
    ensures DistinctIds(Filter(s, keep))
  {
    if s != [] {
      var tail := s[1..];
      assert s == [s[0]] + tail;
      var rest := Filter(tail, keep);
      FilterKeepsDistinct(tail, keep);
      if Keeps(keep, s[0]) {
        var r := [s[0]] + rest;
        forall j | 0 < j < |r| ensures r[0].id != r[j].id {
          assert r[j] == rest[j - 1];
          assert rest[j - 1] in tail;
          var k :| 0 <= k < |tail| && tail[k] == rest[j - 1];
          assert s[k + 1] == r[j];
        }
        forall i, j | 0 < i < j < |r| ensures r[i].id != r[j].id {
          assert r[i] == rest[i - 1] && r[j] == rest[j - 1];
        }
      }
    }
  }

  lemma SortedSnoc(o: Order, s: seq<Record>, x: Record)
    requires Sorted(o, s)
    requires s != [] ==> KeyLe(o, s[|s| - 1], x)
    ensures Sorted(o, s + [x])
  {
    forall i | 0 <= i < |s| ensures KeyLe(o, s[i], x) {
      if i < |s| - 1 { KeyLeTransitive(o, s[i], s[|s| - 1], x); }
    }
  }

  lemma SortedSnocBound(o: Order, t: seq<Record>, last: Record)
    requires Sorted(o, t)
    requires forall y :: y in t ==> KeyLe(o, y, last)
    ensures Sorted(o, t + [last])
  {
    forall i | 0 <= i < |t| ensures KeyLe(o, t[i], last) {
      assert t[i] in t;
    }
  }

  /** Places `x` after the last record of the sorted `s` whose key does not
      exceed its own. */
  function Insert(o: Order, s: seq<Record>, x: Record): (r: seq<Record>)
    requires Sorted(o, s)
    ensures Sorted(o, r)
    ensures multiset(r) == multiset(s) + multiset{x}
    decreases |s|
  {
    if s == [] then [x]
    else
      var init := s[..|s| - 1];
      var last := s[|s| - 1];
      assert s == init + [last];
      if KeyLe(o, last, x) then
        SortedSnoc(o, s, x);
        s + [x]
      else
        KeyLeTotal(o, last, x);
        var t := Insert(o, init, x);
        assert forall y :: y in t ==> KeyLe(o, y, last) by {
          forall y | y in t ensures KeyLe(o, y, last) {
            assert y in multiset(t);
            if y != x {
              assert y in init;
            }
          }
        }
        SortedSnocBound(o, t, last);
        t + [last]
  }

  lemma {:induction false} InsertKeepsDistinct(o: Order, s: seq<Record>, x: Record)
    requires Sorted(o, s)
    requires DistinctIds(s)
    requires forall y :: y in s ==> y.id != x.id
    ensures DistinctIds(Insert(o, s, x))
    decreases |s|
  {
    if s != [] {
      var init := s[..|s| - 1];
      var last := s[|s| - 1];
      assert s == init + [last];
      var r := Insert(o, s, x);
      if KeyLe(o, last, x) {
        assert r == s + [x];
        forall i, j | 0 <= i < j < |r| ensures r[i].id != r[j].id {
          if j == |s| { assert r[i] in s; }
        }
      } else {
        var t := Insert(o, init, x);
        InsertKeepsDistinct(o, init, x);
        assert r == t + [last];
        forall i, j | 0 <= i < j < |r| ensures r[i].id != r[j].id {
          if j == |t| {
            assert t[i] in multiset(t);
            if t[i] != x {
              assert t[i] in init;
              var k :| 0 <= k < |init| && init[k] == t[i];
              assert s[k] == t[i];
            }
          }
        }
      }
    }
  }

  /** Python's stable sort by the key of `o`: a sorted permutation of `s`. */
  function Sort(o: Order, s: seq<Record>): (r: seq<Record>)
    ensures Sorted(o, r)
    ensures multiset(r) == multiset(s)
    decreases |s|
  {
    if s == [] then []
    else
      var init := s[..|s| - 1];
      var last := s[|s| - 1];
      assert s == init + [last];
      Insert(o, Sort(o, init), last)
  }

  lemma SortSameMembers(o: Order, s: seq<Record>)
    ensures forall y :: y in Sort(o, s) <==> y in s
  {
    var r := Sort(o, s);
    forall y ensures y in r <==> y in s {
      assert y in r <==> y in multiset(r);
      assert y in s <==> y in multiset(s);
    }
  }

  lemma {:induction false} SortKeepsDistinct(o: Order, s: seq<Record>)
    requires DistinctIds(s)
    ensures DistinctIds(Sort(o, s))
    decreases |s|
  {
    if s != [] {
      var init := s[..|s| - 1];
      var last := s[|s| - 1];
      assert s == init + [last];
      var t := Sort(o, init);
      assert DistinctIds(init);
      SortKeepsDistinct(o, init);
      SortSameMembers(o, init);
      forall y | y in t ensures y.id != last.id {
        var k :| 0 <= k < |init| && init[k] == y;
        assert s[k] == y;
      }
      InsertKeepsDistinct(o, t, last);
    }
  }
}

=== FILE: planner.dfy ===
/**
 * The insert and move planners (main.py:638-768) and the submit step that
 * completes an insert (main.py:876-889).
 *
 * A planner reads the entries of the active list and the highlighted position
 * and yields either the task the input box will create or the
 * `update_parent` / `update_sort_order` calls a move makes. The store's parent
 * column is a `Links` map from every stored id to its parent; applying the
 * writes to it shows what a move or an insert does to the hierarchy.
 *
 * `perform_move` tests for descent on the parent dictionary of the visible
 * entries (main.py:740-741). A parent that is not visible (a done parent of a
 * todo, say) cuts that chain short, and a move can then close a cycle:
 * `MoveOnView` models the code as written and `ViewMoveCanCloseCycle` shows
 * the cycle; `PerformMove` takes the table the test consults as a parameter,
 * and `PlanMoveKeepsAcyclic` proves that the whole store's table keeps the
 * hierarchy acyclic.
 */
module Planner {
  import opened Wrappers
  import opened Records
  import opened Lineage
  import opened SortKeys
  import opened TreeWalk
  import opened TreeView

  /** The `relationship` a key press asks for. */
  datatype Relationship = Child | Parent | Sibling

  /** The two list widgets; a pending move remembers the one it began in. */
  datatype ListId = TodoList | DoneList

  /** `PendingMove`: the task picked up and the list it was picked up in. */
  datatype PendingMove = PendingMove(todoId: int, listId: ListId)

  /** `PendingTask` without its placeholder text: where the next submitted
      text goes and which task, if any, moves under it. */
  datatype PendingTask = PendingTask(parentId: Option<int>, status: Status, sortOrder: real, reparentId: Option<int>)

  /** One `update_parent` or `update_sort_order` call. */
  datatype Write = SetParent(id: int, parent: Option<int>) | SetKey(id: int, key: real)

  /** The highlighted entry's index, when the highlight is on an entry. */
  function Pick(items: seq<Item>, h: Option<nat>): (i: Option<nat>)
    ensures i.Some? ==> i.value < |items|
  {
    if h.Some? && h.value < |items| then h else None
  }

  /** The entries were read from the store: each id is stored, with the
      parent the entry shows. */
  predicate Consistent(m: Links, items: seq<Item>)
  {
    forall j :: 0 <= j < |items| ==> items[j].rec.id in m && m[items[j].rec.id] == items[j].rec.parentId
  }

  // ----------------------------------------------------------------- inserts

  /**
   * `action_new_child_task`, `action_new_parent_task` and
   * `action_new_sibling_task` when no move is pending: the task the input box
   * will create, or `None` when no entry is highlighted. A child or sibling
   * goes after the highlighted entry's subtree; a parent goes before the
   * entry and takes its place.
   */
  function PlanInsert(rel: Relationship, items: seq<Item>, h: Option<nat>): (t: Option<PendingTask>)
    ensures t.Some? <==> Pick(items, h).Some?
    ensures t.Some? ==> t.value.status == items[h.value].rec.status
    ensures t.Some? && rel == Child ==> t.value.parentId == Some(items[h.value].rec.id) && t.value.reparentId == None
    ensures t.Some? && rel == Sibling ==> t.value.parentId == items[h.value].rec.parentId && t.value.reparentId == None
    ensures t.Some? && rel == Parent ==> t.value.parentId == items[h.value].rec.parentId && t.value.reparentId == Some(items[h.value].rec.id)
    ensures t.Some? && rel != Parent ==>
      var j := LastDescendantIndex(items, h.value);
      && Key(items, j) < t.value.sortOrder
      && (j + 1 < |items| && Key(items, j) < Key(items, j + 1) ==> t.value.sortOrder < Key(items, j + 1))
    ensures t.Some? && rel == Parent ==>
      var i := h.value;
      && t.value.sortOrder < Key(items, i)
      && (0 < i && Key(items, i - 1) < Key(items, i) ==> Key(items, i - 1) < t.value.sortOrder)
  {
    match Pick(items, h)
    case None => None
    case Some(i) =>
      var n := items[i].rec;
      match rel
      case Child => Some(PendingTask(Some(n.id), n.status, SortOrderAfterSubtree(items, i), None))
      case Sibling => Some(PendingTask(n.parentId, n.status, SortOrderAfterSubtree(items, i), None))
      case Parent => Some(PendingTask(n.parentId, n.status, SortOrderBeforeIndex(items, i), Some(n.id)))
  }

  /** `update_parent(id, parent)`: a row that is not stored is not changed. */
  function SetParentIn(m: Links, id: int, p: Option<int>): (m': Links)
    ensures m'.Keys == m.Keys
  {
    if id in m then m[id := p] else m
  }

  /**
   * `on_input_submitted` with a pending task: `add_todo` stores the new task
   * under the fresh id `n` with the planned parent, then an insert-as-parent
   * hangs the highlighted task under it. Text and keys do not touch the
   * parent column. A task to hang that was deleted meanwhile is no longer
   * stored, and its update changes no row.
   */
  function Submit(m: Links, t: PendingTask, n: int): (m': Links)
    requires n !in m
    requires t.reparentId != Some(n)
    ensures m'.Keys == m.Keys + {n}
    ensures m'[n] == t.parentId
    ensures forall y :: y in m ==> m'[y] == if t.reparentId == Some(y) then Some(n) else m[y]
  {
    var m1 := m[n := t.parentId];
    match t.reparentId
    case None => m1
    case Some(r) => SetParentIn(m1, r, Some(n))
  }

  /** Creating a planned task keeps the stored hierarchy free of cycles. */
  lemma SubmitKeepsAcyclic(m: Links, items: seq<Item>, rel: Relationship, h: Option<nat>, n: int)
    requires Acyclic(m) && Fresh(m, n)
    requires Consistent(m, items)
    requires PlanInsert(rel, items, h).Some?
    ensures Acyclic(Submit(m, PlanInsert(rel, items, h).value, n))
  {
    var i := h.value;
    var x := items[i].rec;
    var t := PlanInsert(rel, items, h).value;
    assert x.id in m && m[x.id] == x.parentId;
    match rel
    case Child =>
      FreshNotOnChain(m, n, x.id);
      ReparentKeepsAcyclic(m, n, Some(x.id));
      assert Submit(m, t, n) == m[n := Some(x.id)];
    case Sibling =>
      if x.parentId.Some? {
        FreshNotOnChain(m, n, x.parentId.value);
      }
      ReparentKeepsAcyclic(m, n, x.parentId);
      assert Submit(m, t, n) == m[n := x.parentId];
    case Parent =>
      FreshNotOnChain(m, n, x.id);
      SpliceAboveKeepsAcyclic(m, n, x.id);
      assert Submit(m, t, n) == m[n := m[x.id]][x.id := Some(n)];
  }

  // ---------------------------------------------------------- stale plans

  /** Hanging the named task under the new one would close a loop: the
      planned parent is that task or lies below it. */
  function ReparentClosesLoop(m: Links, t: PendingTask): bool
    requires t.reparentId.Some?
  {
    t.parentId == t.reparentId
    || (t.parentId.Some? && IsDescendant(t.parentId.value, t.reparentId.value, m) != Unrelated)
  }

  /** `Submit` with the re-parenting skipped when it would close a loop, as a
      plan kept across moves can ask for. */
  function SubmitGuarded(m: Links, t: PendingTask, n: int): (m': Links)
    requires n !in m
    requires t.reparentId != Some(n)
    ensures m'.Keys == m.Keys + {n}
    ensures m'[n] == t.parentId
    ensures forall y :: y in m && t.reparentId != Some(y) ==> m'[y] == m[y]
    ensures t.reparentId.Some? && t.reparentId.value in m ==>
      m'[t.reparentId.value] == if ReparentClosesLoop(m, t) then m[t.reparentId.value] else Some(n)
  {
    if t.reparentId.Some? && ReparentClosesLoop(m, t) then m[n := t.parentId]
    else Submit(m, t, n)
  }

  /** Whatever the plan, the guarded submit keeps an acyclic store acyclic.
      Ids are never handed out twice (`AUTOINCREMENT`), so no plan names
      the new id. */
  lemma SubmitGuardedKeepsAcyclic(m: Links, t: PendingTask, n: int)
    requires Acyclic(m) && Fresh(m, n)
    requires t.parentId != Some(n) && t.reparentId != Some(n)
    ensures Acyclic(SubmitGuarded(m, t, n))
  {
    var p := t.parentId;
    if p.Some? {
      FreshNotOnChain(m, n, p.value);
    }
    ReparentKeepsAcyclic(m, n, p);
    match t.reparentId
    case None =>
      assert SubmitGuarded(m, t, n) == m[n := p];
    case Some(r) =>
      if ReparentClosesLoop(m, t) {
        assert SubmitGuarded(m, t, n) == m[n := p];
      } else {
        if p.Some? {
          IsDescendantOnAcyclic(p.value, r, m);
        }
        HangUnderFreshKeepsAcyclic(m, n, p, r);
        if r in m {
          assert SubmitGuarded(m, t, n) == m[n := p][r := Some(n)];
        } else {
          assert SubmitGuarded(m, t, n) == m[n := p];
        }
      }
  }

  /** On a plan read from the current store the guard never fires: the
      guarded submit does what `Submit` does. */
  lemma SubmitGuardedAgrees(m: Links, items: seq<Item>, rel: Relationship, h: Option<nat>, n: int)
    requires Acyclic(m) && Fresh(m, n)
    requires Consistent(m, items)
    requires PlanInsert(rel, items, h).Some?
    ensures SubmitGuarded(m, PlanInsert(rel, items, h).value, n) == Submit(m, PlanInsert(rel, items, h).value, n)
  {
    var t := PlanInsert(rel, items, h).value;
    var x := items[h.value].rec;
    assert x.id in m && m[x.id] == x.parentId;
    if rel == Parent {
      assert Anc(m, Some(x.id), 1) == x.parentId;
      if x.parentId.Some? {
        var q := x.parentId.value;
        IsDescendantOnAcyclic(q, x.id, m);
        if OnChain(m, q, x.id) {
          var k: nat :| 1 <= k && Anc(m, Some(q), k) == Some(x.id);
          AncCompose(m, Some(x.id), 1, k);
          assert false;
        }
      }
      assert !ReparentClosesLoop(m, t);
    }
  }

  /** Two tasks of the stale-plan example: `StaleRoot` and its child
      `StaleChild`. */
  const StaleRoot := Record(1, "trip", 1, Todo, None, 1.0, None)
  const StaleChild := Record(2, "tickets", 2, Todo, Some(1), 2.0, None)

  /** The store when the plan is made: 2 is the child of 1. */
  function StaleStart(): Links
  {
    map[1 := None, 2 := Some(1)]
  }

  /** With "new parent" planned on the child, moving the child beside its
      parent and then the old parent under the child is allowed, and
      leaves the store acyclic. The second move sees the child as a root
      with the key 3.0 that the first move wrote. */
  lemma StaleMoves()
    ensures var before := [Item(StaleRoot, 0), Item(StaleChild, 1)];
      var m1 := ApplyWrites(StaleStart(), PlanMove(Sibling, before, 1, 0, StaleStart()));
      var after := [Item(StaleRoot, 0), Item(StaleChild.(parentId := None, sortOrder := 3.0), 0)];
      var m2 := ApplyWrites(m1, PlanMove(Child, after, 0, 1, m1));
      && Acyclic(StaleStart()) && Consistent(StaleStart(), before)
      && PlanMove(Sibling, before, 1, 0, StaleStart()) == [SetParent(2, None), SetKey(2, 3.0)]
      && m1 == map[1 := None, 2 := None] && Consistent(m1, after)
      && m2 == map[1 := Some(2), 2 := None] && Acyclic(m2)
  {
    var before := [Item(StaleRoot, 0), Item(StaleChild, 1)];
    var after := [Item(StaleRoot, 0), Item(StaleChild.(parentId := None, sortOrder := 3.0), 0)];
    var m0 := StaleStart();
    assert Anc(m0, Some(1), 1) == None;
    AncOfNone(m0, 0);
    assert IsDescendant(1, 2, m0) == Unrelated by {
      assert Climb(m0, None, 2, {}) == Unrelated;
    }
    var k1 := SortOrderAfterSubtree(before, 0);
    assert LastDescendantIndex(before, 0) == 1;
    assert k1 == 3.0;
    assert PlanMove(Sibling, before, 1, 0, m0) == [SetParent(2, None), SetKey(2, k1)];
    ApplyTwo(m0, 2, None, k1);
    var m1 := map[1 := None, 2 := None];
    assert m0[2 := None] == m1;
    assert IsDescendant(2, 1, m1) == Unrelated by {
      assert Climb(m1, None, 1, {}) == Unrelated;
    }
    var k2 := SortOrderAfterSubtree(after, 1);
    assert PlanMove(Child, after, 0, 1, m1) == [SetParent(1, Some(2)), SetKey(1, k2)];
    ApplyTwo(m1, 1, Some(2), k2);
    assert m1[1 := Some(2)] == map[1 := Some(2), 2 := None];
    StaleStartAcyclic();
    MovedStoreAcyclic();
  }

  lemma StaleStartAcyclic()
    ensures Acyclic(StaleStart())
  {
    var m := StaleStart();
    forall x: int, k: nat | 1 <= k ensures Anc(m, Some(x), k) != Some(x) {
      if x == 2 && k >= 2 {
        AncCompose(m, Some(2), 2, k - 2);
        assert Anc(m, Some(2), 2) == None;
        AncOfNone(m, k - 2);
      } else if x == 1 {
        AncCompose(m, Some(1), 1, k - 1);
        AncOfNone(m, k - 1);
      } else if x != 2 {
        AncCompose(m, Some(x), 1, k - 1);
        AncOfNone(m, k - 1);
      }
    }
  }

  lemma MovedStoreAcyclic()
    ensures Acyclic(map[1 := Some(2), 2 := None])
  {
    var m := map[1 := Some(2), 2 := None];
    forall x: int, k: nat | 1 <= k ensures Anc(m, Some(x), k) != Some(x) {
      if x == 1 && k >= 2 {
        AncCompose(m, Some(1), 2, k - 2);
        assert Anc(m, Some(1), 2) == None;
        AncOfNone(m, k - 2);
      } else if x == 2 {
        AncCompose(m, Some(2), 1, k - 1);
        AncOfNone(m, k - 1);
      } else if x != 1 {
        AncCompose(m, Some(x), 1, k - 1);
        AncOfNone(m, k - 1);
      }
    }
  }

  /** The "new parent" plan made before the moves, submitted after them,
      closes the loop 2 -> 3 -> 1 -> 2; the guarded submit does not. */
  lemma StalePlanClosesCycle()
    ensures var t := PlanInsert(Parent, [Item(StaleRoot, 0), Item(StaleChild, 1)], Some(1));
      var m2 := map[1 := Some(2), 2 := None];
      && t.Some? && t.value.parentId == Some(1) && t.value.reparentId == Some(2)
      && Acyclic(m2) && Fresh(m2, 3)
      && !Acyclic(Submit(m2, t.value, 3))
      && Acyclic(SubmitGuarded(m2, t.value, 3))
  {
    var t := PlanInsert(Parent, [Item(StaleRoot, 0), Item(StaleChild, 1)], Some(1)).value;
    var m2 := map[1 := Some(2), 2 := None];
    MovedStoreAcyclic();
    var after := Submit(m2, t, 3);
    assert after == map[1 := Some(2), 2 := Some(3), 3 := Some(1)];
    assert Anc(after, Some(2), 1) == Some(3);
    assert Anc(after, Some(2), 2) == Some(1);
    assert Anc(after, Some(2), 3) == Some(2);
    SubmitGuardedKeepsAcyclic(m2, t, 3);
  }

  // ------------------------------------------------------------------- moves

  /** The parent column after the writes, in order. */
  function ApplyWrites(m: Links, ws: seq<Write>): (m': Links)
    ensures m'.Keys == m.Keys
    decreases |ws|
  {
    if ws == [] then m
    else
      var m1 := match ws[0]
        case SetParent(id, p) => SetParentIn(m, id, p)
        case SetKey(_, _) => m;
      ApplyWrites(m1, ws[1..])
  }

  /**
   * The part of `perform_move` after both entries are found: the writes that
   * move source `si` relative to target `ti`, with `links` the parent table
   * the descendant test consults. Where the test would loop forever in
   * main.py, the model makes no writes.
   */
  function PlanMove(rel: Relationship, items: seq<Item>, si: nat, ti: nat, links: Links): (ws: seq<Write>)
    requires si < |items| && ti < |items|
    ensures items[si].rec.id == items[ti].rec.id || items[si].rec.status != items[ti].rec.status ==> ws == []
    ensures forall k :: 0 <= k < |ws| ==> ws[k].id == items[si].rec.id || ws[k].id == items[ti].rec.id
    ensures IsDescendant(items[ti].rec.id, items[si].rec.id, links) != Unrelated ==>
      (rel != Sibling ==> ws == []) && forall k :: 0 <= k < |ws| ==> ws[k].id == items[ti].rec.id
  {
    var s := items[si].rec;
    var t := items[ti].rec;
    if s.id == t.id || s.status != t.status then []
    else
      match IsDescendant(t.id, s.id, links)
      case Descends =>
        if rel == Sibling then [SetParent(t.id, Up(links, Some(s.id))), SetKey(t.id, SortOrderAfterSubtree(items, si))]
        else []
      case Loops => []
      case Unrelated =>
        match rel
        case Child => [SetParent(s.id, Some(t.id)), SetKey(s.id, SortOrderAfterSubtree(items, ti))]
        case Sibling => [SetParent(s.id, t.parentId), SetKey(s.id, SortOrderAfterSubtree(items, ti))]
        case Parent => [SetParent(s.id, t.parentId), SetKey(s.id, SortOrderBeforeIndex(items, ti)), SetParent(t.id, Some(s.id))]
  }

  /** `perform_move(relationship)` with the pending move `mv`, the active list,
      its entries and the highlight. */
  function PerformMove(rel: Relationship, mv: Option<PendingMove>, active: ListId, items: seq<Item>, h: Option<nat>, links: Links): (ws: seq<Write>)
    ensures mv.None? || active != mv.value.listId || Pick(items, h).None? ==> ws == []
    ensures mv.Some? && (forall j :: 0 <= j < |items| ==> items[j].rec.id != mv.value.todoId) ==> ws == []
    ensures ws != [] ==> forall k :: 0 <= k < |ws| ==> ws[k].id == mv.value.todoId || ws[k].id == items[h.value].rec.id
  {
    if mv.None? || active != mv.value.listId then []
    else
      match (FindIndex(items, mv.value.todoId), Pick(items, h))
      case (Some(si), Some(ti)) => PlanMove(rel, items, si, ti, links)
      case _ => []
  }

  /** `perform_move` as written: the descendant test sees only the parent
      dictionary of the visible entries (main.py:740). */
  function MoveOnView(rel: Relationship, mv: Option<PendingMove>, active: ListId, items: seq<Item>, h: Option<nat>): (ws: seq<Write>)
    ensures mv.None? || active != mv.value.listId || Pick(items, h).None? ==> ws == []
    ensures mv.Some? && (forall j :: 0 <= j < |items| ==> items[j].rec.id != mv.value.todoId) ==> ws == []
    ensures ws != [] ==> forall k :: 0 <= k < |ws| ==> ws[k].id == mv.value.todoId || ws[k].id == items[h.value].rec.id
  {
    PerformMove(rel, mv, active, items, h, ParentMap(RecordsOf(items)))
  }

  /** On the store's own parent table, the descendant test is exact: a target
      below the source is never made its parent's parent, and only the
      sibling request moves it, up to the source's parent. */
  lemma PlanMoveRespectsDescent(rel: Relationship, items: seq<Item>, si: nat, ti: nat, m: Links)
    requires si < |items| && ti < |items|
    requires Acyclic(m) && Consistent(m, items)
    requires items[si].rec.id != items[ti].rec.id && items[si].rec.status == items[ti].rec.status
    ensures OnChain(m, items[ti].rec.id, items[si].rec.id) ==>
      PlanMove(rel, items, si, ti, m) == if rel == Sibling then
        [SetParent(items[ti].rec.id, items[si].rec.parentId), SetKey(items[ti].rec.id, SortOrderAfterSubtree(items, si))]
      else []
    ensures !OnChain(m, items[ti].rec.id, items[si].rec.id) ==>
      |PlanMove(rel, items, si, ti, m)| >= 2 && PlanMove(rel, items, si, ti, m)[0].id == items[si].rec.id
  {
    IsDescendantOnAcyclic(items[ti].rec.id, items[si].rec.id, m);
  }

  /** The sort key the writes leave on `id`: the last `SetKey` for it. */
  function KeyWritten(ws: seq<Write>, id: int): Option<real>
    decreases |ws|
  {
    if ws == [] then None
    else
      var later := KeyWritten(ws[1..], id);
      if later.Some? then later
      else if ws[0].SetKey? && ws[0].id == id then Some(ws[0].key)
      else None
  }

  /** Key `k` lies after the subtree of entry `i`: above its last entry's
      key, and below the next entry's key when that one is larger. */
  predicate AfterSubtree(items: seq<Item>, i: nat, k: real)
    requires i < |items|
  {
    var j := LastDescendantIndex(items, i);
    && Key(items, j) < k
    && (j + 1 < |items| && Key(items, j) < Key(items, j + 1) ==> k < Key(items, j + 1))
  }

  /** Key `k` lies before entry `i`: below its key, and above the previous
      entry's key when that one is smaller. */
  predicate BeforeEntry(items: seq<Item>, i: nat, k: real)
    requires i < |items|
  {
    && k < Key(items, i)
    && (0 < i && Key(items, i - 1) < Key(items, i) ==> Key(items, i - 1) < k)
  }

  /** Source and target of a move that passes the guards of main.py:736-739,
      with a target that is not below the source in the store. */
  ghost predicate FreeToMove(items: seq<Item>, si: nat, ti: nat, m: Links)
    requires si < |items| && ti < |items|
  {
    && items[si].rec.id != items[ti].rec.id
    && items[si].rec.status == items[ti].rec.status
    && !OnChain(m, items[ti].rec.id, items[si].rec.id)
  }

  lemma KeyWrittenTwo(x: int, p: Option<int>, key: real)
    ensures KeyWritten([SetParent(x, p), SetKey(x, key)], x) == Some(key)
    ensures forall y :: y != x ==> KeyWritten([SetParent(x, p), SetKey(x, key)], y).None?
  {
    var ws := [SetParent(x, p), SetKey(x, key)];
    assert ws[1..] == [SetKey(x, key)];
    assert ws[1..][1..] == [];
    forall y ensures KeyWritten(ws, y) == if y == x then Some(key) else None {
      assert KeyWritten(ws[1..][1..], y) == None;
      assert KeyWritten(ws[1..], y) == if y == x then Some(key) else None;
    }
  }

  lemma KeyWrittenThree(s: int, t: int, p: Option<int>, key: real)
    requires s != t
    ensures KeyWritten([SetParent(s, p), SetKey(s, key), SetParent(t, Some(s))], s) == Some(key)
    ensures KeyWritten([SetParent(s, p), SetKey(s, key), SetParent(t, Some(s))], t).None?
  {
    var ws := [SetParent(s, p), SetKey(s, key), SetParent(t, Some(s))];
    assert ws[1..] == [SetKey(s, key), SetParent(t, Some(s))];
    assert ws[1..][1..] == [SetParent(t, Some(s))];
    assert ws[1..][1..][1..] == [];
    forall y ensures KeyWritten(ws, y) == if y == s then Some(key) else None {
      assert KeyWritten(ws[1..][1..][1..], y) == None;
      assert KeyWritten(ws[1..][1..], y) == None;
      assert KeyWritten(ws[1..], y) == if y == s then Some(key) else None;
    }
  }

  /** A child move onto a target not below the source hangs the source under
      the target and keys it after the target's subtree; the target keeps
      its parent and key (main.py:754-757). */
  lemma MoveChildEffect(items: seq<Item>, si: nat, ti: nat, m: Links)
    requires si < |items| && ti < |items|
    requires Acyclic(m) && Consistent(m, items)
    requires FreeToMove(items, si, ti, m)
    ensures var ws := PlanMove(Child, items, si, ti, m);
      && ApplyWrites(m, ws) == m[items[si].rec.id := Some(items[ti].rec.id)]
      && KeyWritten(ws, items[si].rec.id).Some?
      && AfterSubtree(items, ti, KeyWritten(ws, items[si].rec.id).value)
      && KeyWritten(ws, items[ti].rec.id).None?
  {
    var s := items[si].rec;
    var t := items[ti].rec;
    var key := SortOrderAfterSubtree(items, ti);
    assert s.id in m;
    IsDescendantOnAcyclic(t.id, s.id, m);
    assert PlanMove(Child, items, si, ti, m) == [SetParent(s.id, Some(t.id)), SetKey(s.id, key)];
    ApplyTwo(m, s.id, Some(t.id), key);
    KeyWrittenTwo(s.id, Some(t.id), key);
  }

  /** A sibling move onto a target not below the source gives the source the
      target's parent and a key after the target's subtree
      (main.py:758-761). */
  lemma MoveSiblingEffect(items: seq<Item>, si: nat, ti: nat, m: Links)
    requires si < |items| && ti < |items|
    requires Acyclic(m) && Consistent(m, items)
    requires FreeToMove(items, si, ti, m)
    ensures var ws := PlanMove(Sibling, items, si, ti, m);
      && ApplyWrites(m, ws) == m[items[si].rec.id := m[items[ti].rec.id]]
      && KeyWritten(ws, items[si].rec.id).Some?
      && AfterSubtree(items, ti, KeyWritten(ws, items[si].rec.id).value)
      && KeyWritten(ws, items[ti].rec.id).None?
  {
    var s := items[si].rec;
    var t := items[ti].rec;
    var key := SortOrderAfterSubtree(items, ti);
    assert s.id in m && t.id in m && m[t.id] == t.parentId;
    IsDescendantOnAcyclic(t.id, s.id, m);
    assert PlanMove(Sibling, items, si, ti, m) == [SetParent(s.id, t.parentId), SetKey(s.id, key)];
    ApplyTwo(m, s.id, t.parentId, key);
    KeyWrittenTwo(s.id, t.parentId, key);
  }

  /** A parent move onto a target not below the source puts the source in the
      target's place, keyed just before it, and hangs the target under the
      source (main.py:762-766). */
  lemma MoveParentEffect(items: seq<Item>, si: nat, ti: nat, m: Links)
    requires si < |items| && ti < |items|
    requires Acyclic(m) && Consistent(m, items)
    requires FreeToMove(items, si, ti, m)
    ensures var ws := PlanMove(Parent, items, si, ti, m);
      && ApplyWrites(m, ws) == m[items[si].rec.id := m[items[ti].rec.id]][items[ti].rec.id := Some(items[si].rec.id)]
      && KeyWritten(ws, items[si].rec.id).Some?
      && BeforeEntry(items, ti, KeyWritten(ws, items[si].rec.id).value)
      && KeyWritten(ws, items[ti].rec.id).None?
  {
    var s := items[si].rec;
    var t := items[ti].rec;
    var key := SortOrderBeforeIndex(items, ti);
    assert s.id in m && t.id in m && m[t.id] == t.parentId;
    IsDescendantOnAcyclic(t.id, s.id, m);
    assert PlanMove(Parent, items, si, ti, m) == [SetParent(s.id, t.parentId), SetKey(s.id, key), SetParent(t.id, Some(s.id))];
    ApplyThree(m, s.id, t.id, key);
    KeyWrittenThree(s.id, t.id, t.parentId, key);
  }

  /** A sibling move onto a target below the source lifts the target to the
      source's parent and keys it after the source's subtree; the source stays
      (main.py:742-747). */
  lemma MoveDetachEffect(items: seq<Item>, si: nat, ti: nat, m: Links)
    requires si < |items| && ti < |items|
    requires Acyclic(m) && Consistent(m, items)
    requires items[si].rec.id != items[ti].rec.id && items[si].rec.status == items[ti].rec.status
    requires OnChain(m, items[ti].rec.id, items[si].rec.id)
    ensures var ws := PlanMove(Sibling, items, si, ti, m);
      && ApplyWrites(m, ws) == m[items[ti].rec.id := m[items[si].rec.id]]
      && KeyWritten(ws, items[ti].rec.id).Some?
      && AfterSubtree(items, si, KeyWritten(ws, items[ti].rec.id).value)
      && KeyWritten(ws, items[si].rec.id).None?
  {
    var s := items[si].rec;
    var t := items[ti].rec;
    var key := SortOrderAfterSubtree(items, si);
    assert s.id in m && t.id in m && m[s.id] == s.parentId;
    IsDescendantOnAcyclic(t.id, s.id, m);
    assert PlanMove(Sibling, items, si, ti, m) == [SetParent(t.id, s.parentId), SetKey(t.id, key)];
    ApplyTwo(m, t.id, s.parentId, key);
    KeyWrittenTwo(t.id, s.parentId, key);
  }

  /** A move planned on the store's parent table keeps it free of cycles. */
  lemma PlanMoveKeepsAcyclic(rel: Relationship, items: seq<Item>, si: nat, ti: nat, m: Links)
    requires si < |items| && ti < |items|
    requires Acyclic(m) && Consistent(m, items)
    ensures Acyclic(ApplyWrites(m, PlanMove(rel, items, si, ti, m)))
  {
    var s := items[si].rec;
    var t := items[ti].rec;
    var ws := PlanMove(rel, items, si, ti, m);
    if s.id == t.id || s.status != t.status {
      assert ApplyWrites(m, ws) == m;
    } else {
      IsDescendantOnAcyclic(t.id, s.id, m);
      assert s.id in m && m[s.id] == s.parentId;
      assert t.id in m && m[t.id] == t.parentId;
      if OnChain(m, t.id, s.id) {
        if rel == Sibling {
          DetachKeepsAcyclic(m, s.id, t.id);
          ApplyTwo(m, t.id, m[s.id], SortOrderAfterSubtree(items, si));
        } else {
          assert ApplyWrites(m, ws) == m;
        }
      } else {
        match rel
        case Child =>
          ReparentKeepsAcyclic(m, s.id, Some(t.id));
          ApplyTwo(m, s.id, Some(t.id), SortOrderAfterSubtree(items, ti));
        case Sibling =>
          ReparentBesideKeepsAcyclic(m, s.id, t.id);
          ApplyTwo(m, s.id, m[t.id], SortOrderAfterSubtree(items, ti));
        case Parent =>
          SpliceAboveKeepsAcyclic(m, s.id, t.id);
          ApplyThree(m, s.id, t.id, SortOrderBeforeIndex(items, ti));
      }
    }
  }

  lemma ApplyTwo(m: Links, x: int, p: Option<int>, key: real)
    requires x in m
    ensures ApplyWrites(m, [SetParent(x, p), SetKey(x, key)]) == m[x := p]
  {
    var ws := [SetParent(x, p), SetKey(x, key)];
    assert ws[1..] == [SetKey(x, key)];
    assert ws[1..][1..] == [];
    assert ApplyWrites(m[x := p], [SetKey(x, key)]) == ApplyWrites(m[x := p], []);
  }

  lemma ApplyThree(m: Links, s: int, t: int, key: real)
    requires s in m && t in m
    ensures ApplyWrites(m, [SetParent(s, m[t]), SetKey(s, key), SetParent(t, Some(s))]) == m[s := m[t]][t := Some(s)]
  {
    var ws := [SetParent(s, m[t]), SetKey(s, key), SetParent(t, Some(s))];
    var m1 := m[s := m[t]];
    assert ws[1..] == [SetKey(s, key), SetParent(t, Some(s))];
    assert ws[1..][1..] == [SetParent(t, Some(s))];
    assert [SetParent(t, Some(s))][1..] == [];
    assert ApplyWrites(m1, [SetParent(t, Some(s))]) == ApplyWrites(m1[t := Some(s)], []);
  }

  /** `perform_move` with the store's parent table keeps it free of cycles. */
  lemma MoveKeepsAcyclic(rel: Relationship, mv: Option<PendingMove>, active: ListId, items: seq<Item>, h: Option<nat>, m: Links)
    requires Acyclic(m) && Consistent(m, items)
    ensures Acyclic(ApplyWrites(m, PerformMove(rel, mv, active, items, h, m)))
  {
    if mv.Some? && active == mv.value.listId {
      match (FindIndex(items, mv.value.todoId), Pick(items, h))
      case (Some(si), Some(ti)) =>
        PlanMoveKeepsAcyclic(rel, items, si, ti, m);
      case _ =>
        assert PerformMove(rel, mv, active, items, h, m) == [];
    } else {
      assert PerformMove(rel, mv, active, items, h, m) == [];
    }
  }

  /** On the entries of a tree view the descendant test as written always
      settles: the visible parent dictionary has no cycle. */
  lemma TreeViewDescentSettles(recs: seq<Record>, c: int, a: int)
    requires DistinctIds(recs)
    ensures IsDescendant(c, a, ParentMap(RecordsOf(BuildTree(recs)))) != Loops
  {
    BuildTreeLinksAcyclic(recs);
    IsDescendantOnAcyclic(c, a, ParentMap(RecordsOf(BuildTree(recs))));
  }

  // ------------------------------------------- a move across a hidden parent

  /** A todo task, its done child, and that child's todo child. */
  const HiddenRoot := Record(1, "plan", 1, Todo, None, 1.0, None)
  const HiddenParent := Record(2, "draft", 2, Done, Some(1), 2.0, None)
  const HiddenChild := Record(3, "review", 3, Todo, Some(2), 3.0, None)

  /** The store's parent column for the three tasks. */
  function HiddenStore(): Links
  {
    map[1 := None, 2 := Some(1), 3 := Some(2)]
  }

  /** What the todo tab lists: the done task in between is not among them. */
  function HiddenTodos(): seq<Record>
  {
    [HiddenRoot, HiddenChild]
  }

  lemma HiddenStoreAcyclic()
    ensures Acyclic(HiddenStore())
  {
    var m := HiddenStore();
    forall x: int, k: nat | 1 <= k ensures Anc(m, Some(x), k) != Some(x) {
      assert Anc(m, Some(x), 1) == Up(m, Some(x));
      assert Anc(m, Some(x), 2) == Up(m, Anc(m, Some(x), 1));
      assert Anc(m, Some(x), 3) == Up(m, Anc(m, Some(x), 2));
      assert Anc(m, Some(x), 3) == None;
      if k > 3 {
        LeftStaysNone(m, Some(x), 3, k);
      }
    }
  }

  /** After the move the root's chain comes back to it in three steps. */
  lemma MovedStoreCycles()
    ensures !Acyclic(HiddenStore()[1 := Some(3)])
  {
    var m' := HiddenStore()[1 := Some(3)];
    assert Anc(m', Some(1), 1) == Some(3);
    assert Anc(m', Some(1), 2) == Some(2);
    assert Anc(m', Some(1), 3) == Some(1);
  }

  /** The store's table sees the grandchild below the root. */
  lemma StoreSeesDescent()
    ensures IsDescendant(3, 1, HiddenStore()) == Descends
  {
    var m := HiddenStore();
    assert Anc(m, Some(3), 2) == Some(1);
    assert OnChain(m, 3, 1);
    HiddenStoreAcyclic();
    IsDescendantOnAcyclic(3, 1, m);
  }

  /** A table that stops at the hidden parent does not. */
  lemma ViewMissesDescent(view: Links)
    requires 3 in view && view[3] == Some(2) && 2 !in view
    ensures IsDescendant(3, 1, view) == Unrelated
  {
    assert Climb(view, Some(2), 1, {}) == Unrelated;
  }

  /** Moving the root under the grandchild on the todo tab: the visible
      dictionary stops at the hidden done parent, the test answers "not a
      descendant", and the store gains the cycle 1 -> 3 -> 2 -> 1. */
  lemma ViewMoveCycle(items: seq<Item>, si: nat, ti: nat)
    requires si < |items| && ti < |items|
    requires items[si].rec == HiddenRoot && items[ti].rec == HiddenChild
    requires forall j :: 0 <= j < |items| ==> items[j].rec in HiddenTodos()
    requires DistinctIds(RecordsOf(items))
    ensures Consistent(HiddenStore(), items)
    ensures !Acyclic(ApplyWrites(HiddenStore(), PlanMove(Child, items, si, ti, ParentMap(RecordsOf(items)))))
    ensures PlanMove(Child, items, si, ti, HiddenStore()) == []
  {
    var shown := RecordsOf(items);
    var view := ParentMap(shown);
    assert 2 !in Ids(shown);
    ParentMapLookup(shown, ti);
    ViewMissesDescent(view);
    ViewPlan(items, si, ti, view);
    ApplyTwo(HiddenStore(), 1, Some(3), SortOrderAfterSubtree(items, ti));
    MovedStoreCycles();
    StoreSeesDescent();
    HiddenConsistent(items);
  }

  /** The todo tab's entries agree with the store. */
  lemma HiddenConsistent(items: seq<Item>)
    requires forall j :: 0 <= j < |items| ==> items[j].rec in HiddenTodos()
    ensures Consistent(HiddenStore(), items)
  {
    forall j | 0 <= j < |items|
      ensures items[j].rec.id in HiddenStore() && HiddenStore()[items[j].rec.id] == items[j].rec.parentId
    {
      var r := items[j].rec;
      assert r in HiddenTodos();
      assert r == HiddenRoot || r == HiddenChild;
    }
  }

  /** The writes of that move when the test answers "not a descendant". */
  lemma ViewPlan(items: seq<Item>, si: nat, ti: nat, view: Links)
    requires si < |items| && ti < |items|
    requires items[si].rec == HiddenRoot && items[ti].rec == HiddenChild
    requires IsDescendant(3, 1, view) == Unrelated
    ensures PlanMove(Child, items, si, ti, view) == [SetParent(1, Some(3)), SetKey(1, SortOrderAfterSubtree(items, ti))]
  {
  }

  /** Any list of the todo tab that shows the root and the grandchild: the
      move as written closes the cycle, the store's table rejects it. */
  lemma MoveOnViewCycle(items: seq<Item>, ti: nat)
    requires ti < |items| && items[ti].rec == HiddenChild
    requires Shows(items, HiddenRoot)
    requires forall j :: 0 <= j < |items| ==> items[j].rec in HiddenTodos()
    requires DistinctIds(RecordsOf(items))
    ensures Consistent(HiddenStore(), items)
    ensures !Acyclic(ApplyWrites(HiddenStore(), MoveOnView(Child, Some(PendingMove(1, TodoList)), TodoList, items, Some(ti))))
    ensures PerformMove(Child, Some(PendingMove(1, TodoList)), TodoList, items, Some(ti), HiddenStore()) == []
  {
    var si := FindIndex(items, 1).value;
    assert items[si].rec in HiddenTodos();
    var mv := Some(PendingMove(1, TodoList));
    assert MoveOnView(Child, mv, TodoList, items, Some(ti)) == PlanMove(Child, items, si, ti, ParentMap(RecordsOf(items)));
    assert PerformMove(Child, mv, TodoList, items, Some(ti), HiddenStore()) == PlanMove(Child, items, si, ti, HiddenStore());
    ViewMoveCycle(items, si, ti);
  }

  /** On the todo tab's tree view of those three tasks the move above closes
      the cycle, while the store's own table rejects it. */
  lemma ViewMoveCanCloseCycle(todos: seq<Record>) returns (ti: nat)
    requires todos == HiddenTodos()
    ensures var items := BuildTree(todos);
      && ti < |items| && items[ti].rec == HiddenChild
      && Acyclic(HiddenStore()) && Consistent(HiddenStore(), items)
      && !Acyclic(ApplyWrites(HiddenStore(), MoveOnView(Child, Some(PendingMove(1, TodoList)), TodoList, items, Some(ti))))
      && PerformMove(Child, Some(PendingMove(1, TodoList)), TodoList, items, Some(ti), HiddenStore()) == []
  {
    var items := BuildTree(todos);
    TodosRooted(todos);
    BuildTreeComplete(todos, HiddenRoot);
    BuildTreeComplete(todos, HiddenChild);
    var t :| 0 <= t < |items| && items[t].rec == HiddenChild;
    ti := t;
    BuildTreeLinksAcyclic(todos);
    MoveOnViewCycle(items, ti);
    HiddenStoreAcyclic();
  }

  /** Both listed tasks are roots of the todo tab. */
  lemma TodosRooted(todos: seq<Record>)
    requires todos == HiddenTodos()
    ensures DistinctIds(todos)
    ensures Rooted(todos, HiddenRoot) && Rooted(todos, HiddenChild)
  {
    ParentMapLookup(todos, 0);
    ParentMapLookup(todos, 1);
    assert 2 !in Ids(todos);
    assert RootAt(todos, 1, 0);
    assert RootAt(todos, 3, 0);
  }
}

=== FILE: records.dfy ===
/**
 * The task records the engine reads and the list items it produces.
 *
 * `Record` carries the fields main.py reads from a store row (id, text,
 * creation timestamp, status, parent link, sort key, priority); `Item` is a
 * record placed in a linearization together with its depth, which is what a
 * `TodoListItem` copies out of its record.
 */
module Records {
  import opened Wrappers

  datatype Status = Todo | Done

  /** The creation timestamp is an ISO-8601 string in the store; only its
      order matters here, so it is an opaque integer. */
  datatype Record = Record(
    id: int,
    text: string,
    timestamp: int,
    status: Status,
    parentId: Option<int>,
    sortOrder: real,
    priority: Option<int>)

  datatype Item = Item(rec: Record, depth: nat)

  function Ids(s: seq<Record>): set<int>
  {
    set r | r in s :: r.id
  }

  /** No two records share an id, as the store's primary key guarantees. */
  predicate DistinctIds(s: seq<Record>)
  {
    forall i, j :: 0 <= i < j < |s| ==> s[i].id != s[j].id
  }

  /** The records of a linearization, in order. */
  function RecordsOf(items: seq<Item>): (s: seq<Record>)
    ensures |s| == |items|
    ensures forall i :: 0 <= i < |items| ==> s[i] == items[i].rec
  {
    seq(|items|, i requires 0 <= i < |items| => items[i].rec)
  }

  /** The id-to-parent dictionary built by a comprehension over the records;
      a later record with a repeated id overwrites an earlier one. */
  function ParentMap(s: seq<Record>): (m: map<int, Option<int>>)
    ensures m.Keys == Ids(s)
    decreases |s|
  {
    if s == [] then map[]
    else
      var init := s[..|s| - 1];
      var last := s[|s| - 1];
      assert s == init + [last];
      assert Ids(s) == Ids(init) + {last.id};
      ParentMap(init)[last.id := last.parentId]
  }

  /** With distinct ids the dictionary maps each record's id to its own parent. */
  lemma {:induction false} ParentMapLookup(s: seq<Record>, i: nat)
    requires DistinctIds(s)
    requires i < |s|
    ensures s[i].id in ParentMap(s) && ParentMap(s)[s[i].id] == s[i].parentId
    decreases |s|
  {
    var init := s[..|s| - 1];
    if i < |s| - 1 {
      assert init[i] == s[i];
      assert s[i].id != s[|s| - 1].id;
      ParentMapLookup(init, i);
    }
  }

  function FindIndex(items: seq<Item>, id: int): (r: Option<nat>)
    ensures r.Some? ==> r.value < |items| && items[r.value].rec.id == id
    ensures r.Some? ==> forall j :: 0 <= j < r.value ==> items[j].rec.id != id
    ensures r.None? <==> forall j :: 0 <= j < |items| ==> items[j].rec.id != id
  {
    FindFrom(items, id, 0)
  }

  function FindFrom(items: seq<Item>, id: int, k: nat): (r: Option<nat>)
    requires k <= |items|
    requires forall j :: 0 <= j < k ==> items[j].rec.id != id
    ensures r.Some? ==> k <= r.value < |items| && items[r.value].rec.id == id
    ensures r.Some? ==> forall j :: 0 <= j < r.value ==> items[j].rec.id != id
    ensures r.None? <==> forall j :: 0 <= j < |items| ==> items[j].rec.id != id
    decreases |items| - k
  {
    if k == |items| then None
    else if items[k].rec.id == id then Some(k)
    else FindFrom(items, id, k + 1)
  }
}

=== FILE: sort_keys.dfy ===
/**
 * Fractional sort keys (main.py:533-548, 821-837).
 *
 * A new or moved task gets a key computed from its neighbours in the current
 * linearization: the midpoint with the next (or previous) entry, or a step of
 * one past the current key at the end of the list or when the neighbour's key
 * is not on the expected side. Keys are `real` here, so midpoints are exact.
 *
 * In this revision the tree view orders siblings by creation time, not by
 * these keys (main.py:455-460), so the keys written here do not yet decide
 * where a task is shown.
 */
module SortKeys {
  import opened Wrappers
  import opened Records

  /** The key placed after `cur`, whose successor in the list has key `next`. */
  function KeyAfter(cur: real, next: Option<real>): (k: real)
    ensures cur < k
    ensures next.Some? && cur < next.value ==> k < next.value && k - cur == next.value - k
    ensures !(next.Some? && cur < next.value) ==> k == cur + 1.0
  {
    match next
    case Some(n) => if n <= cur then cur + 1.0 else (cur + n) / 2.0
    case None => cur + 1.0
  }

  /** The key placed before `cur`, whose predecessor in the list has key `prev`. */
  function KeyBefore(cur: real, prev: Option<real>): (k: real)
    ensures k < cur
    ensures prev.Some? && prev.value < cur ==> prev.value < k && cur - k == k - prev.value
    ensures !(prev.Some? && prev.value < cur) ==> k == cur - 1.0
  {
    match prev
    case Some(p) => if cur <= p then cur - 1.0 else (p + cur) / 2.0
    case None => cur - 1.0
  }

  function Key(items: seq<Item>, i: nat): real
    requires i < |items|
  {
    items[i].rec.sortOrder
  }

  /** `sort_order_after_index(items, i)`. */
  function SortOrderAfterIndex(items: seq<Item>, i: nat): (k: real)
    requires i < |items|
    ensures Key(items, i) < k
    ensures i + 1 < |items| && Key(items, i) < Key(items, i + 1) ==>
      k < Key(items, i + 1) && k - Key(items, i) == Key(items, i + 1) - k
    ensures i + 1 == |items| || Key(items, i + 1) <= Key(items, i) ==> k == Key(items, i) + 1.0
  {
    KeyAfter(Key(items, i), if i + 1 < |items| then Some(Key(items, i + 1)) else None)
  }

  /** `sort_order_before_index(items, i)`. */
  function SortOrderBeforeIndex(items: seq<Item>, i: nat): (k: real)
    requires i < |items|
    ensures k < Key(items, i)
    ensures 0 < i && Key(items, i - 1) < Key(items, i) ==>
      Key(items, i - 1) < k && Key(items, i) - k == k - Key(items, i - 1)
    ensures i == 0 || Key(items, i) <= Key(items, i - 1) ==> k == Key(items, i) - 1.0
  {
    KeyBefore(Key(items, i), if 0 < i then Some(Key(items, i - 1)) else None)
  }

  /** The first index at or after `k` whose depth is at most `d`, or the length. */
  function SubtreeEnd(items: seq<Item>, d: nat, k: nat): (e: nat)
    requires k <= |items|
    ensures k <= e <= |items|
    ensures forall m :: k <= m < e ==> items[m].depth > d
    ensures e < |items| ==> items[e].depth <= d
    decreases |items| - k
  {
    if k == |items| || items[k].depth <= d then k else SubtreeEnd(items, d, k + 1)
  }

  /**
   * `last_descendant_index(items, i)`: the end of the run of deeper entries
   * that follows entry `i`, which in a depth-first linearization is the last
   * entry of `i`'s subtree.
   */
  function LastDescendantIndex(items: seq<Item>, i: nat): (j: nat)
    requires i < |items|
    ensures i <= j < |items|
    ensures forall m :: i < m <= j ==> items[m].depth > items[i].depth
    ensures j + 1 < |items| ==> items[j + 1].depth <= items[i].depth
  {
    SubtreeEnd(items, items[i].depth, i + 1) - 1
  }

  /** The three properties of `LastDescendantIndex` single out its result. */
  lemma LastDescendantUnique(items: seq<Item>, i: nat, j: nat)
    requires i <= j < |items|
    requires forall m :: i < m <= j ==> items[m].depth > items[i].depth
    requires j + 1 < |items| ==> items[j + 1].depth <= items[i].depth
    ensures j == LastDescendantIndex(items, i)
  {
    var l := LastDescendantIndex(items, i);
  }

  /** The scan that `action_new_child_task` and `action_new_sibling_task`
      write out inline, and `last_descendant_index` as a method: walk forward
      while the entries are deeper than entry `index`. */
  method ScanSubtree(items: seq<Item>, index: nat) returns (last: nat)
    requires index < |items|
    ensures last == LastDescendantIndex(items, index)
  {
    last := index;
    var next := index + 1;
    while next < |items|
      invariant index + 1 <= next <= |items|
      invariant last == next - 1
      invariant forall m :: index < m < next ==> items[m].depth > items[index].depth
      decreases |items| - next
    {
      if items[next].depth <= items[index].depth {
        break;
      }
      last := next;
      next := next + 1;
    }
    LastDescendantUnique(items, index, last);
  }

  /** `sort_order_after_subtree(items, i)`: a key after the last entry of
      `i`'s subtree, below the entry that follows the subtree when that one
      has a larger key. */
  function SortOrderAfterSubtree(items: seq<Item>, i: nat): (k: real)
    requires i < |items|
    ensures var j := LastDescendantIndex(items, i);
      && Key(items, j) < k
      && (j + 1 < |items| && Key(items, j) < Key(items, j + 1) ==> k < Key(items, j + 1))
      && (j + 1 == |items| || Key(items, j + 1) <= Key(items, j) ==> k == Key(items, j) + 1.0)
  {
    SortOrderAfterIndex(items, LastDescendantIndex(items, i))
  }

  /** The keys that `n` new-child commands on one entry of the tree view
      produce in a row. Each new child is the entry's newest and so comes
      last in its subtree (main.py:455-460). The next child's key therefore
      goes right after the previous child's key, and before the same
      following key `hi` (main.py:650-655). The flat priority view has no
      subtrees, so there the commands all get one key (`FlatSubtreeIsEntry`). */
  function MidpointRun(lo: real, hi: real, n: nat): seq<real>
    decreases n
  {
    if n == 0 then []
    else
      var k := KeyAfter(lo, Some(hi));
      [k] + MidpointRun(k, hi, n - 1)
  }

  /** Between `lo < hi`, such a run gives `n` distinct keys, all strictly
      inside `(lo, hi)`, each above the one before it. */
  lemma {:induction false} MidpointRunStaysBetween(lo: real, hi: real, n: nat)
    requires lo < hi
    ensures |MidpointRun(lo, hi, n)| == n
    ensures forall i :: 0 <= i < n ==> lo < MidpointRun(lo, hi, n)[i] < hi
    ensures forall i, j :: 0 <= i < j < n ==> MidpointRun(lo, hi, n)[i] < MidpointRun(lo, hi, n)[j]
    decreases n
  {
    if n > 0 {
      var k := KeyAfter(lo, Some(hi));
      MidpointRunStaysBetween(k, hi, n - 1);
      var run := MidpointRun(lo, hi, n);
      assert run == [k] + MidpointRun(k, hi, n - 1);
      forall i, j | 0 <= i < j < n ensures run[i] < run[j] {
        if i == 0 {
          assert run[j] == MidpointRun(k, hi, n - 1)[j - 1];
        } else {
          assert run[i] == MidpointRun(k, hi, n - 1)[i - 1];
          assert run[j] == MidpointRun(k, hi, n - 1)[j - 1];
        }
      }
    }
  }

  /** In a list where every entry sits at depth 0, as in the flat priority
      view, an entry's subtree is the entry alone: the new-child key depends
      only on the entry and the one after it, so adding a child the view
      leaves out or lists last does not change the next new-child key. */
  lemma FlatSubtreeIsEntry(items: seq<Item>, i: nat)
    requires i < |items|
    requires forall j :: 0 <= j < |items| ==> items[j].depth == 0
    ensures LastDescendantIndex(items, i) == i
    ensures SortOrderAfterSubtree(items, i) == SortOrderAfterIndex(items, i)
  {
  }

  function Negate(x: Option<real>): Option<real>
  {
    match x
    case Some(v) => Some(-v)
    case None => None
  }

  /** The before-key is the after-key of the mirrored list, in which every key
      is negated and the predecessor becomes the successor. */
  lemma BeforeMirrorsAfter(cur: real, prev: Option<real>)
    ensures KeyBefore(cur, prev) == -KeyAfter(-cur, Negate(prev))
  {
  }
}

=== FILE: tree_view.dfy ===
/**
 * The tree linearization of `build_display_items` (main.py:446-471) and what
 * it guarantees: every record that reaches a root is listed exactly once,
 * roots at depth 0, each record after its parent with only its parent's
 * descendants between them, and siblings in creation order. Records on a
 * parent cycle, or below one, never reach a root and are left out.
 *
 * The properties are proved about any `w` with `TreeFacts(recs, w)`, which
 * `BuildTree` establishes, and then restated about `BuildTree` itself.
 */
module TreeView {
  import opened Wrappers
  import opened Records
  import opened Ordering
  import opened Lineage
  import opened TreeWalk

  /** What the walk from the sorted roots guarantees about its output. */
  ghost predicate TreeFacts(recs: seq<Record>, w: seq<Item>)
  {
    ForestFacts(recs, Roots(recs), 0, w) && Covers(recs, Roots(recs), w)
  }

  /** The tree branch of `build_display_items`: children grouped and sorted,
      roots sorted, then `walk(root, 0)` for every root. */
  function BuildTree(recs: seq<Record>): (out: seq<Item>)
    requires DistinctIds(recs)
    ensures TreeFacts(recs, out)
    ensures forall j :: 0 <= j < |out| ==> out[j].rec in recs
    ensures NoRepeats(out)
    ensures forall j :: 0 <= j < |out| ==> (out[j].depth == 0 <==> IsRoot(recs, out[j].rec))
    ensures ParentsFirst(out, 0)
    ensures SiblingsOrdered(out, 0)
  {
    ChildMapTable(recs);
    RootsRootAt(recs);
    RootsFacts(recs);
    var out := WalkForest(recs, ChildMap(recs), Roots(recs), 0);
    DepthZeroIffRoot(recs, out);
    out
  }

  lemma DepthZeroIffRoot(recs: seq<Record>, w: seq<Item>)
    requires DistinctIds(recs)
    requires ForestFacts(recs, Roots(recs), 0, w)
    ensures forall j :: 0 <= j < |w| ==> (w[j].depth == 0 <==> IsRoot(recs, w[j].rec))
  {
    RootsFacts(recs);
    forall j | 0 <= j < |w| ensures w[j].depth == 0 <==> IsRoot(recs, w[j].rec) {
      if w[j].depth > 0 {
        var i :| 0 <= i < j && LinkedTo(w, i, j);
        assert w[i].rec in recs;
        assert w[j].rec.parentId.value in Ids(recs);
      }
    }
  }

  // ------------------------------------------------------------ completeness

  /** Following parents from `r` leads to a root. */
  ghost predicate Rooted(recs: seq<Record>, r: Record)
  {
    exists k: nat :: RootAt(recs, r.id, k)
  }

  lemma TreeComplete(recs: seq<Record>, roots: seq<Record>, w: seq<Item>, r: Record)
    requires DistinctIds(recs)
    requires forall t :: t in recs && IsRoot(recs, t) ==> t in roots
    requires forall j :: 0 <= j < |w| ==> Placed(recs, w[j])
    requires Covers(recs, roots, w)
    requires r in recs
    ensures Shows(w, r) <==> Rooted(recs, r)
  {
    if Shows(w, r) {
      var j :| 0 <= j < |w| && w[j].rec == r;
      assert Placed(recs, w[j]);
      assert RootAt(recs, r.id, w[j].depth);
    }
    if Rooted(recs, r) {
      var m := ParentMap(recs);
      var k: nat :| RootAt(recs, r.id, k);
      RootAtAnc(recs, r.id, k);
      var top :| top in recs && top.id == Anc(m, Some(r.id), k).value;
      LinkOfMember(recs, top);
      assert IsRoot(recs, top);
      assert LeadsInto(recs, r, k, roots);
    }
  }

  /** A record of the list is shown exactly when its parents lead to a root. */
  lemma BuildTreeComplete(recs: seq<Record>, r: Record)
    requires DistinctIds(recs)
    requires r in recs
    ensures Shows(BuildTree(recs), r) <==> Rooted(recs, r)
  {
    RootsFacts(recs);
    TreeComplete(recs, Roots(recs), BuildTree(recs), r);
  }

  // ------------------------------------------------------------------ cycles

  /** From a record that reaches a root, following parents never comes back. */
  lemma NoReturn(m: Links, x: int, depth: nat, k: nat)
    requires AncRoot(m, x, depth)
    requires 1 <= k
    ensures Anc(m, Some(x), k) != Some(x)
  {
    RootChainInside(m, x, depth, 0);
    if k <= depth {
      RootChainDistinct(m, x, depth, 0, k);
    } else if k > depth + 1 {
      LeftStaysNone(m, Some(x), depth + 1, k);
    }
  }

  /** Every shown record is off every parent cycle. */
  lemma PlacedOffCycle(recs: seq<Record>, e: Item)
    requires DistinctIds(recs) && Placed(recs, e)
    ensures !OnChain(ParentMap(recs), e.rec.id, e.rec.id)
  {
    var x := e.rec.id;
    RootAtAnc(recs, x, e.depth);
    forall k: nat | 1 <= k ensures Anc(ParentMap(recs), Some(x), k) != Some(x) {
      NoReturn(ParentMap(recs), x, e.depth, k);
    }
  }

  /** A record that is its own strict ancestor is never shown. */
  lemma BuildTreeSkipsCycles(recs: seq<Record>, r: Record)
    requires DistinctIds(recs)
    requires OnChain(ParentMap(recs), r.id, r.id)
    ensures !Shows(BuildTree(recs), r)
  {
    var w := BuildTree(recs);
    forall j | 0 <= j < |w| ensures w[j].rec != r {
      PlacedOffCycle(recs, w[j]);
    }
  }

  // ------------------------------------------------------- links of the view

  /** Links agreeing with `l` wherever they are defined are `l` cut short. */
  lemma {:induction false} SubLinksAnc(s: Links, l: Links, x: Option<int>, k: nat)
    requires forall v :: v in s ==> v in l && s[v] == l[v]
    ensures Anc(s, x, k) == Anc(l, x, k) || Anc(s, x, k) == None
  {
    if k > 0 {
      SubLinksAnc(s, l, x, k - 1);
    }
  }

  lemma TreeLinksAcyclic(recs: seq<Record>, w: seq<Item>)
    requires DistinctIds(recs)
    requires forall j :: 0 <= j < |w| ==> Placed(recs, w[j])
    requires NoRepeats(w)
    ensures DistinctIds(RecordsOf(w))
    ensures Acyclic(ParentMap(RecordsOf(w)))
  {
    var shown := RecordsOf(w);
    var l := ParentMap(recs);
    var s := ParentMap(shown);
    forall i, j | 0 <= i < j < |shown| ensures shown[i].id != shown[j].id {
      if shown[i].id == shown[j].id {
        SameIdSameRecord(recs, shown[i], shown[j]);
      }
    }
    forall v | v in s ensures v in l && s[v] == l[v] {
      var j :| 0 <= j < |shown| && shown[j].id == v;
      ParentMapLookup(shown, j);
      LinkOfMember(recs, shown[j]);
    }
    forall x: int, k: nat | 1 <= k ensures Anc(s, Some(x), k) != Some(x) {
      if x in s {
        var j :| 0 <= j < |shown| && shown[j].id == x;
        assert Placed(recs, w[j]);
        RootAtAnc(recs, x, w[j].depth);
        NoReturn(l, x, w[j].depth, k);
        SubLinksAnc(s, l, Some(x), k);
      } else {
        LeftStaysNone(s, Some(x), 0, k);
      }
    }
  }

  /** The parent dictionary of a tree view has no cycle, so the descendant
      test of a move (main.py:520-531) always settles on it. */
  lemma BuildTreeLinksAcyclic(recs: seq<Record>)
    requires DistinctIds(recs)
    ensures DistinctIds(RecordsOf(BuildTree(recs)))
    ensures Acyclic(ParentMap(RecordsOf(BuildTree(recs))))
  {
    TreeLinksAcyclic(recs, BuildTree(recs));
  }
}

=== FILE: tree_walk.dfy ===
/**
 * The depth-first walk of `build_display_items` (main.py:446-471).
 *
 * A record is a root when its parent id is absent or names no record of the
 * list; the roots and every group of children are sorted by creation
 * `(timestamp, todo_id)`, and `walk` emits a record, then the walks of its
 * sorted children one level deeper.
 *
 * The walk terminates because ids are unique: a record at depth `d` lies
 * exactly `d` parent steps below a root (`RootAt`), the `d + 1` ids on that
 * chain are pairwise different, so `d` stays below the number of records.
 * That bound is the walk's termination measure. The Python walk also stops
 * at CPython's recursion limit with a `RecursionError`, which the model does
 * not have.
 */
module TreeWalk {
  import opened Wrappers
  import opened Records
  import opened Ordering
  import opened Lineage

  /** `record.parent_id not in record_by_id`. */
  predicate IsRoot(recs: seq<Record>, r: Record)
  {
    r.parentId.None? || r.parentId.value !in Ids(recs)
  }

  /** The `roots` list after `roots.sort(key=sort_key)`. */
  function Roots(recs: seq<Record>): seq<Record>
  {
    Sort(ByCreation, Filter(recs, RootAmong(Ids(recs))))
  }

  /** `children_map[id]` after sorting. */
  function Children(recs: seq<Record>, id: int): seq<Record>
  {
    Sort(ByCreation, Filter(recs, ChildOf(id)))
  }

  lemma RootsFacts(recs: seq<Record>)
    requires DistinctIds(recs)
    ensures Sorted(ByCreation, Roots(recs))
    ensures DistinctIds(Roots(recs))
    ensures forall r :: r in Roots(recs) <==> r in recs && IsRoot(recs, r)
  {
    var f := Filter(recs, RootAmong(Ids(recs)));
    FilterKeepsDistinct(recs, RootAmong(Ids(recs)));
    SortKeepsDistinct(ByCreation, f);
    SortSameMembers(ByCreation, f);
  }

  lemma ChildrenFacts(recs: seq<Record>, id: int)
    requires DistinctIds(recs)
    ensures Sorted(ByCreation, Children(recs, id))
    ensures DistinctIds(Children(recs, id))
    ensures forall r :: r in Children(recs, id) <==> r in recs && r.parentId == Some(id)
  {
    var f := Filter(recs, ChildOf(id));
    FilterKeepsDistinct(recs, ChildOf(id));
    SortKeepsDistinct(ByCreation, f);
    SortSameMembers(ByCreation, f);
  }

  /** `children_map` once its lists are sorted: each record id maps to the
      records naming it as parent, in creation order. */
  function ChildMap(recs: seq<Record>): map<int, seq<Record>>
  {
    map id | id in Ids(recs) :: Children(recs, id)
  }

  /** `children_map.get(id, [])`. */
  function Kids(kids: map<int, seq<Record>>, id: int): seq<Record>
  {
    if id in kids then kids[id] else []
  }

  /** `cs` is the sorted group of children of `id`. */
  ghost predicate ChildGroup(recs: seq<Record>, id: int, cs: seq<Record>)
  {
    && Sorted(ByCreation, cs)
    && DistinctIds(cs)
    && (forall c {:trigger c in cs} :: c in cs <==> c in recs && c.parentId == Some(id))
  }

  /** `kids` answers every record id with its sorted group of children. */
  ghost predicate ChildTable(recs: seq<Record>, kids: map<int, seq<Record>>)
  {
    forall id {:trigger Kids(kids, id)} :: id in Ids(recs) ==> ChildGroup(recs, id, Kids(kids, id))
  }

  lemma ChildMapTable(recs: seq<Record>)
    requires DistinctIds(recs)
    ensures ChildTable(recs, ChildMap(recs))
  {
    forall id | id in Ids(recs) ensures ChildGroup(recs, id, Kids(ChildMap(recs), id)) {
      ChildrenFacts(recs, id);
    }
  }

  /** In the parent dictionary of the records, each record maps to its own parent. */
  lemma LinkOfMember(recs: seq<Record>, r: Record)
    requires DistinctIds(recs)
    requires r in recs
    ensures r.id in ParentMap(recs) && ParentMap(recs)[r.id] == r.parentId
  {
    var i :| 0 <= i < |recs| && recs[i] == r;
    ParentMapLookup(recs, i);
  }

  /** `x` is the id of a record lying exactly `k` parent steps below a root. */
  ghost predicate RootAt(recs: seq<Record>, x: int, k: nat)
    decreases k
  {
    var m := ParentMap(recs);
    && x in m
    && if k == 0 then m[x].None? || m[x].value !in m
       else m[x].Some? && RootAt(recs, m[x].value, k - 1)
  }

  /** The same statement in terms of `Anc`: `k` steps lead to a key whose own
      parent is absent or unknown. */
  ghost predicate AncRoot(m: Links, x: int, k: nat)
  {
    && Anc(m, Some(x), k).Some?
    && Anc(m, Some(x), k).value in m
    && (Anc(m, Some(x), k + 1).None? || Anc(m, Some(x), k + 1).value !in m)
  }

  /** Going up from a child is going up from its parent one step later. */
  lemma ShiftUp(m: Links, c: int, p: int, k: nat)
    requires c in m && m[c] == Some(p)
    ensures Anc(m, Some(c), k + 1) == Anc(m, Some(p), k)
  {
    AncCompose(m, Some(c), 1, k);
  }

  lemma {:induction false} RootAtAnc(recs: seq<Record>, x: int, k: nat)
    requires RootAt(recs, x, k)
    ensures AncRoot(ParentMap(recs), x, k)
    decreases k
  {
    var m := ParentMap(recs);
    if k > 0 {
      var p := m[x].value;
      RootAtAnc(recs, p, k - 1);
      ShiftUp(m, x, p, k - 1);
      ShiftUp(m, x, p, k);
    }
  }

  /** A record lies below a root at one depth only. */
  lemma {:induction false} RootAtUnique(recs: seq<Record>, x: int, k1: nat, k2: nat)
    requires RootAt(recs, x, k1)
    requires k1 < k2
    ensures !RootAt(recs, x, k2)
    decreases k1
  {
    var m := ParentMap(recs);
    if k1 > 0 {
      RootAtUnique(recs, m[x].value, k1 - 1, k2 - 1);
    }
  }

  /** A step that lands on a key passed through keys only. */
  lemma {:induction false} InsideBefore(m: Links, x: Option<int>, i: nat, j: nat)
    requires i < j
    requires Anc(m, x, j).Some?
    ensures Anc(m, x, i).Some? && Anc(m, x, i).value in m
    decreases j
  {
    if i + 1 < j {
      InsideBefore(m, x, i, j - 1);
    }
  }

  /** The ids met on the way up to a root are pairwise different. */
  lemma RootChainDistinct(m: Links, x: int, d: nat, i: nat, j: nat)
    requires AncRoot(m, x, d)
    requires i < j <= d
    ensures Anc(m, Some(x), i) != Anc(m, Some(x), j)
  {
    var t := d - i;
    AncCompose(m, Some(x), i, t);
    AncCompose(m, Some(x), j, t);
    if j + t > d + 1 {
      LeftStaysNone(m, Some(x), d + 1, j + t);
    }
    assert Anc(m, Anc(m, Some(x), j), t) != Anc(m, Anc(m, Some(x), i), t);
  }

  /** Each id on the way up to a root is a key of the links. */
  lemma RootChainInside(m: Links, x: int, d: nat, k: nat)
    requires AncRoot(m, x, d)
    requires k <= d
    ensures Anc(m, Some(x), k).Some? && Anc(m, Some(x), k).value in m
  {
    if k < d {
      InsideBefore(m, Some(x), k, d);
    }
  }

  function ValueOr(o: Option<int>): int
  {
    if o.Some? then o.value else 0
  }

  /** A sequence without repeats drawn from `t` is no longer than `t` is large. */
  lemma {:induction false} DistinctWithin<T>(s: seq<T>, t: set<T>)
    requires forall i, j :: 0 <= i < j < |s| ==> s[i] != s[j]
    requires forall i :: 0 <= i < |s| ==> s[i] in t
    ensures |s| <= |t|
  {
    if s != [] {
      var last := s[|s| - 1];
      var init := s[..|s| - 1];
      forall i | 0 <= i < |init| ensures init[i] in t - {last} {
        assert init[i] == s[i];
      }
      DistinctWithin(init, t - {last});
    }
  }

  lemma {:induction false} IdsBound(recs: seq<Record>)
    ensures |Ids(recs)| <= |recs|
  {
    if recs != [] {
      var init := recs[..|recs| - 1];
      assert recs == init + [recs[|recs| - 1]];
      assert Ids(recs) == Ids(init) + {recs[|recs| - 1].id};
      IdsBound(init);
    }
  }

  /** The depth of a record below its root is less than the number of
      records: the `d + 1` ids on the way up are pairwise different. */
  lemma RootDepthBound(recs: seq<Record>, x: int, d: nat)
    requires RootAt(recs, x, d)
    ensures d < |recs|
  {
    var m := ParentMap(recs);
    RootAtAnc(recs, x, d);
    var s := seq(d + 1, (k: nat) => ValueOr(Anc(m, Some(x), k)));
    forall k | 0 <= k < |s| ensures s[k] in Ids(recs) {
      RootChainInside(m, x, d, k);
    }
    forall i, j | 0 <= i < j < |s| ensures s[i] != s[j] {
      RootChainInside(m, x, d, i);
      RootChainInside(m, x, d, j);
      RootChainDistinct(m, x, d, i, j);
    }
    DistinctWithin(s, Ids(recs));
    IdsBound(recs);
  }

  lemma RootRootAt(recs: seq<Record>, r: Record)
    requires DistinctIds(recs)
    requires r in recs && IsRoot(recs, r)
    ensures RootAt(recs, r.id, 0)
  {
    LinkOfMember(recs, r);
  }

  lemma RootsRootAt(recs: seq<Record>)
    requires DistinctIds(recs)
    ensures forall i :: 0 <= i < |Roots(recs)| ==>
      Roots(recs)[i] in recs && RootAt(recs, Roots(recs)[i].id, 0)
  {
    RootsFacts(recs);
    forall i | 0 <= i < |Roots(recs)| ensures RootAt(recs, Roots(recs)[i].id, 0) {
      RootRootAt(recs, Roots(recs)[i]);
    }
  }

  lemma ChildRootAt(recs: seq<Record>, n: Record, d: nat, c: Record)
    requires DistinctIds(recs)
    requires RootAt(recs, n.id, d)
    requires c in recs && c.parentId == Some(n.id)
    ensures RootAt(recs, c.id, d + 1)
  {
    LinkOfMember(recs, c);
  }

  lemma ChildrenRootAt(recs: seq<Record>, kids: map<int, seq<Record>>, n: Record, d: nat)
    requires DistinctIds(recs) && ChildTable(recs, kids)
    requires n in recs && RootAt(recs, n.id, d)
    ensures ChildGroup(recs, n.id, Kids(kids, n.id))
    ensures forall i :: 0 <= i < |Kids(kids, n.id)| ==>
      Kids(kids, n.id)[i] in recs && RootAt(recs, Kids(kids, n.id)[i].id, d + 1)
  {
    assert n.id in Ids(recs);
    var cs := Kids(kids, n.id);
    forall i | 0 <= i < |cs| ensures cs[i] in recs && RootAt(recs, cs[i].id, d + 1) {
      assert cs[i] in cs;
      ChildRootAt(recs, n, d, cs[i]);
    }
  }

  /** An entry of the walk: its record is one of `recs` and lies exactly
      `depth` parent steps below a root. */
  ghost predicate Placed(recs: seq<Record>, e: Item)
  {
    e.rec in recs && RootAt(recs, e.rec.id, e.depth)
  }

  /** Entry `j` is a child of entry `i`, one level deeper, and everything
      between them lies deeper than `i`: `i` heads the block holding `j`. */
  ghost predicate LinkedTo(w: seq<Item>, i: nat, j: nat)
    requires i < j < |w|
  {
    && w[j].rec.parentId == Some(w[i].rec.id)
    && w[j].depth == w[i].depth + 1
    && forall m :: i < m < j ==> w[m].depth > w[i].depth
  }

  /** Every entry deeper than `d` comes after the entry of its parent. */
  ghost predicate ParentsFirst(w: seq<Item>, d: nat)
  {
    forall j :: 0 <= j < |w| && w[j].depth > d ==> exists i :: 0 <= i < j && LinkedTo(w, i, j)
  }

  /** Entries `i` and `j` are at one level with nothing shallower between. */
  ghost predicate SameLevel(w: seq<Item>, i: nat, j: nat)
    requires i < j < |w|
  {
    w[i].depth == w[j].depth && forall m :: i < m < j ==> w[m].depth >= w[i].depth
  }

  /** Entries at one level come in creation order, and below level `d` they
      share a parent: they are siblings. */
  ghost predicate SiblingsOrdered(w: seq<Item>, d: nat)
  {
    forall i, j :: 0 <= i < j < |w| && SameLevel(w, i, j) ==>
      && KeyLe(ByCreation, w[i].rec, w[j].rec)
      && (w[i].depth > d ==> w[i].rec.parentId == w[j].rec.parentId)
  }

  /** No record is emitted twice. */
  ghost predicate NoRepeats(w: seq<Item>)
  {
    forall i, j :: 0 <= i < j < |w| ==> w[i].rec != w[j].rec
  }

  /** The entry lies `depth - d` parent steps below the record with id `a`. */
  ghost predicate Below(recs: seq<Record>, e: Item, d: nat, a: int)
  {
    e.depth >= d && Anc(ParentMap(recs), Some(e.rec.id), e.depth - d) == Some(a)
  }

  /** The entry lies `depth - d` parent steps below one of `cs`. */
  ghost predicate BelowSome(recs: seq<Record>, e: Item, d: nat, cs: seq<Record>)
  {
    && e.depth >= d
    && Anc(ParentMap(recs), Some(e.rec.id), e.depth - d).Some?
    && Anc(ParentMap(recs), Some(e.rec.id), e.depth - d).value in Ids(cs)
  }

  /** What `walk(n, d)` produces: `n` at depth `d` first, then only deeper
      entries, each a record lying below a root at its depth and below `n`
      by its depth difference; parents before children, siblings in creation
      order, no record twice. */
  ghost predicate NodeFacts(recs: seq<Record>, n: Record, d: nat, w: seq<Item>)
  {
    && |w| > 0 && w[0] == Item(n, d)
    && (forall j :: 0 < j < |w| ==> w[j].depth > d)
    && (forall j :: 0 <= j < |w| ==> Placed(recs, w[j]))
    && (forall j :: 0 <= j < |w| ==> Below(recs, w[j], d, n.id))
    && ParentsFirst(w, d)
    && SiblingsOrdered(w, d)
    && NoRepeats(w)
  }

  /** What the walks of `cs` at depth `d` produce: the entries at depth `d`
      are records of `cs`, led by `cs[0]`, every other entry is deeper and
      below one of `cs`; parents before children, siblings in creation
      order, no record twice. */
  ghost predicate ForestFacts(recs: seq<Record>, cs: seq<Record>, d: nat, w: seq<Item>)
  {
    && (cs == [] <==> w == [])
    && (cs != [] ==> w[0] == Item(cs[0], d))
    && (forall j :: 0 <= j < |w| ==> w[j].depth >= d)
    && (forall j :: 0 <= j < |w| && w[j].depth == d ==> w[j].rec in cs)
    && (forall j :: 0 <= j < |w| ==> Placed(recs, w[j]))
    && (forall j :: 0 <= j < |w| ==> BelowSome(recs, w[j], d, cs))
    && ParentsFirst(w, d)
    && SiblingsOrdered(w, d)
    && NoRepeats(w)
  }

  /** `walk(n, d)`: `n` at depth `d`, then the walks of its sorted children. */
  function WalkNode(ghost recs: seq<Record>, kids: map<int, seq<Record>>, n: Record, d: nat): (w: seq<Item>)
    requires DistinctIds(recs) && ChildTable(recs, kids)
    requires n in recs && RootAt(recs, n.id, d)
    ensures NodeFacts(recs, n, d, w)
    ensures Covers(recs, [n], w)
    decreases |recs| - d, 0, 0
  {
    RootDepthBound(recs, n.id, d);
    ChildrenRootAt(recs, kids, n, d);
    var cs := Kids(kids, n.id);
    var f := WalkForest(recs, kids, cs, d + 1);
    NodeJoin(recs, n, d, cs, f);
    CoverNode(recs, n, d, cs, f);
    [Item(n, d)] + f
  }

  /** The walks of `cs`, one after the other: `for child in ...: walk(child, d)`. */
  function WalkForest(ghost recs: seq<Record>, kids: map<int, seq<Record>>, cs: seq<Record>, d: nat): (w: seq<Item>)
    requires DistinctIds(recs) && ChildTable(recs, kids)
    requires forall i :: 0 <= i < |cs| ==> cs[i] in recs && RootAt(recs, cs[i].id, d)
    requires Sorted(ByCreation, cs) && DistinctIds(cs)
    ensures ForestFacts(recs, cs, d, w)
    ensures Covers(recs, cs, w)
    decreases |recs| - d, 1, |cs|
  {
    if cs == [] then []
    else
      SuffixFacts(recs, cs, d);
      var a := WalkNode(recs, kids, cs[0], d);
      var b := WalkForest(recs, kids, cs[1..], d);
      ForestJoin(recs, cs, d, a, b);
      CoverForest(recs, cs, a, b);
      a + b
  }

  // ---------------------------------------------------------------- coverage

  /** `r` appears among the entries. */
  ghost predicate Shows(w: seq<Item>, r: Record)
  {
    exists j :: 0 <= j < |w| && w[j].rec == r
  }

  /** Following `k` parents from `r` arrives at one of `cs`. */
  ghost predicate LeadsInto(recs: seq<Record>, r: Record, k: nat, cs: seq<Record>)
  {
    var a := Anc(ParentMap(recs), Some(r.id), k);
    a.Some? && a.value in Ids(cs)
  }

  /** Every record at or below one of `cs` is among the entries. */
  ghost predicate Covers(recs: seq<Record>, cs: seq<Record>, w: seq<Item>)
  {
    forall r, k: nat :: r in recs && LeadsInto(recs, r, k, cs) ==> Shows(w, r)
  }

  lemma ShowsJoin(a: seq<Item>, b: seq<Item>, r: Record)
    requires Shows(a, r) || Shows(b, r)
    ensures Shows(a + b, r)
  {
    if Shows(a, r) {
      var j :| 0 <= j < |a| && a[j].rec == r;
      assert (a + b)[j] == a[j];
    } else {
      var j :| 0 <= j < |b| && b[j].rec == r;
      assert (a + b)[|a| + j] == b[j];
    }
  }

  /** In a list with distinct ids, an id names one record. */
  lemma SameIdSameRecord(recs: seq<Record>, a: Record, b: Record)
    requires DistinctIds(recs)
    requires a in recs && b in recs && a.id == b.id
    ensures a == b
  {
    var i :| 0 <= i < |recs| && recs[i] == a;
    var j :| 0 <= j < |recs| && recs[j] == b;
    assert i == j;
  }

  /** One step down the parent path from `n` towards `r`. */
  lemma ChildOnPath(recs: seq<Record>, n: Record, r: Record, k: nat) returns (c: Record)
    requires DistinctIds(recs)
    requires 1 <= k && Anc(ParentMap(recs), Some(r.id), k) == Some(n.id)
    ensures c in recs && c.parentId == Some(n.id)
    ensures Anc(ParentMap(recs), Some(r.id), k - 1) == Some(c.id)
  {
    var m := ParentMap(recs);
    var x := Anc(m, Some(r.id), k - 1);
    assert Up(m, x) == Some(n.id);
    c :| c in recs && c.id == x.value;
    LinkOfMember(recs, c);
  }

  /** A node's walk covers the node when its children's walk covers them. */
  lemma CoverNode(recs: seq<Record>, n: Record, d: nat, cs: seq<Record>, f: seq<Item>)
    requires DistinctIds(recs) && n in recs
    requires ChildGroup(recs, n.id, cs)
    requires Covers(recs, cs, f)
    ensures Covers(recs, [n], [Item(n, d)] + f)
  {
    var w := [Item(n, d)] + f;
    forall r, k: nat | r in recs && LeadsInto(recs, r, k, [n]) ensures Shows(w, r) {
      assert Anc(ParentMap(recs), Some(r.id), k) == Some(n.id);
      if k == 0 {
        SameIdSameRecord(recs, r, n);
        assert w[0].rec == r;
      } else {
        var c := ChildOnPath(recs, n, r, k);
        assert c in cs;
        assert LeadsInto(recs, r, k - 1, cs);
        ShowsJoin([Item(n, d)], f, r);
      }
    }
  }

  /** A forest's walk covers the forest when each part covers its own. */
  lemma CoverForest(recs: seq<Record>, cs: seq<Record>, a: seq<Item>, b: seq<Item>)
    requires cs != []
    requires Covers(recs, [cs[0]], a) && Covers(recs, cs[1..], b)
    ensures Covers(recs, cs, a + b)
  {
    forall r, k: nat | r in recs && LeadsInto(recs, r, k, cs) ensures Shows(a + b, r) {
      var v := Anc(ParentMap(recs), Some(r.id), k).value;
      var c :| c in cs && c.id == v;
      if c == cs[0] {
        assert LeadsInto(recs, r, k, [cs[0]]);
      } else {
        var i :| 0 <= i < |cs| && cs[i] == c;
        assert cs[1..][i - 1] == c;
        assert LeadsInto(recs, r, k, cs[1..]);
      }
      ShowsJoin(a, b, r);
    }
  }

  /** What the rest of a forest inherits from the whole. */
  lemma SuffixFacts(recs: seq<Record>, cs: seq<Record>, d: nat)
    requires cs != []
    requires forall i :: 0 <= i < |cs| ==> cs[i] in recs && RootAt(recs, cs[i].id, d)
    requires Sorted(ByCreation, cs) && DistinctIds(cs)
    ensures forall i :: 0 <= i < |cs[1..]| ==> cs[1..][i] in recs && RootAt(recs, cs[1..][i].id, d)
    ensures Sorted(ByCreation, cs[1..]) && DistinctIds(cs[1..])
  {
  }

  /** The facts of `walk(n, d)` from those of the walk of its children. */
  lemma NodeJoin(recs: seq<Record>, n: Record, d: nat, cs: seq<Record>, f: seq<Item>)
    requires DistinctIds(recs)
    requires n in recs && RootAt(recs, n.id, d)
    requires ChildGroup(recs, n.id, cs)
    requires ForestFacts(recs, cs, d + 1, f)
    ensures NodeFacts(recs, n, d, [Item(n, d)] + f)
  {
    var w := [Item(n, d)] + f;
    forall j | 0 < j < |w| ensures w[j] == f[j - 1] { }
    forall j | 0 <= j < |f| && f[j].depth == d + 1 ensures f[j].rec.parentId == Some(n.id) {
      assert f[j].rec in cs;
    }
    NodeBelow(recs, n, d, cs, f);
    NodeLinked(n, d, f);
    NodeSiblings(n, d, f);
    NodeNoRepeats(recs, n, d, f);
  }

  lemma NodeBelow(recs: seq<Record>, n: Record, d: nat, cs: seq<Record>, f: seq<Item>)
    requires DistinctIds(recs)
    requires ChildGroup(recs, n.id, cs)
    requires forall j :: 0 <= j < |f| ==> BelowSome(recs, f[j], d + 1, cs)
    ensures forall j :: 0 <= j < |[Item(n, d)] + f| ==> Below(recs, ([Item(n, d)] + f)[j], d, n.id)
  {
    var m := ParentMap(recs);
    var w := [Item(n, d)] + f;
    forall j | 0 <= j < |w| ensures Below(recs, w[j], d, n.id) {
      if j > 0 {
        var e := f[j - 1];
        assert w[j] == e;
        var x := Anc(m, Some(e.rec.id), e.depth - (d + 1));
        var c :| c in cs && c.id == x.value;
        LinkOfMember(recs, c);
        assert Anc(m, Some(e.rec.id), e.depth - d) == Up(m, x);
      }
    }
  }

  /** `LinkedTo` survives putting entries in front. */
  lemma LinkedShift(a: seq<Item>, b: seq<Item>, i: nat, j: nat)
    requires i < j < |b| && LinkedTo(b, i, j)
    ensures LinkedTo(a + b, |a| + i, |a| + j)
  {
    var w := a + b;
    forall m | |a| + i < m < |a| + j ensures w[m].depth > w[|a| + i].depth {
      assert w[m] == b[m - |a|];
    }
  }

  /** `LinkedTo` survives putting entries behind. */
  lemma LinkedPrefix(a: seq<Item>, b: seq<Item>, i: nat, j: nat)
    requires i < j < |a| && LinkedTo(a, i, j)
    ensures LinkedTo(a + b, i, j)
  {
    var w := a + b;
    forall m | i < m < j ensures w[m].depth > w[i].depth {
      assert w[m] == a[m];
    }
  }

  lemma NodeLinked(n: Record, d: nat, f: seq<Item>)
    requires forall j :: 0 <= j < |f| ==> f[j].depth >= d + 1
    requires forall j :: 0 <= j < |f| && f[j].depth == d + 1 ==> f[j].rec.parentId == Some(n.id)
    requires ParentsFirst(f, d + 1)
    ensures ParentsFirst([Item(n, d)] + f, d)
  {
    var w := [Item(n, d)] + f;
    forall j | 0 <= j < |w| && w[j].depth > d ensures exists i :: 0 <= i < j && LinkedTo(w, i, j) {
      assert w[j] == f[j - 1];
      if f[j - 1].depth == d + 1 {
        forall m | 0 < m < j ensures w[m].depth > w[0].depth {
          assert w[m] == f[m - 1];
        }
        assert LinkedTo(w, 0, j);
      } else {
        var i :| 0 <= i < j - 1 && LinkedTo(f, i, j - 1);
        LinkedShift([Item(n, d)], f, i, j - 1);
      }
    }
  }

  lemma NodeSiblings(n: Record, d: nat, f: seq<Item>)
    requires forall j :: 0 <= j < |f| ==> f[j].depth >= d + 1
    requires forall j :: 0 <= j < |f| && f[j].depth == d + 1 ==> f[j].rec.parentId == Some(n.id)
    requires SiblingsOrdered(f, d + 1)
    ensures SiblingsOrdered([Item(n, d)] + f, d)
  {
    var w := [Item(n, d)] + f;
    forall i, j | 0 <= i < j < |w| && SameLevel(w, i, j)
      ensures KeyLe(ByCreation, w[i].rec, w[j].rec)
      ensures w[i].depth > d ==> w[i].rec.parentId == w[j].rec.parentId
    {
      assert w[j] == f[j - 1];
      assert w[i] == f[i - 1];
      forall m | i - 1 < m < j - 1 ensures f[m].depth >= f[i - 1].depth {
        assert f[m] == w[m + 1];
      }
      assert SameLevel(f, i - 1, j - 1);
    }
  }

  lemma NodeNoRepeats(recs: seq<Record>, n: Record, d: nat, f: seq<Item>)
    requires RootAt(recs, n.id, d)
    requires forall j :: 0 <= j < |f| ==> f[j].depth >= d + 1
    requires forall j :: 0 <= j < |f| ==> Placed(recs, f[j])
    requires NoRepeats(f)
    ensures NoRepeats([Item(n, d)] + f)
  {
    var w := [Item(n, d)] + f;
    forall i, j | 0 <= i < j < |w| ensures w[i].rec != w[j].rec {
      assert w[j] == f[j - 1];
      if i == 0 {
        RootAtUnique(recs, n.id, d, f[j - 1].depth);
      } else {
        assert w[i] == f[i - 1];
      }
    }
  }

  /** The facts of a forest walk, from those of its first tree and of the rest. */
  lemma ForestJoin(recs: seq<Record>, cs: seq<Record>, d: nat, a: seq<Item>, b: seq<Item>)
    requires cs != []
    requires Sorted(ByCreation, cs) && DistinctIds(cs)
    requires NodeFacts(recs, cs[0], d, a)
    requires ForestFacts(recs, cs[1..], d, b)
    ensures ForestFacts(recs, cs, d, a + b)
  {
    ForestShape(recs, cs, d, a, b);
    ForestLinked(a, b, d);
    ForestSiblings(cs, d, a, b);
    ForestNoRepeats(recs, cs, d, a, b);
  }

  /** The depth, membership and placement parts of `ForestJoin`. */
  lemma ForestShape(recs: seq<Record>, cs: seq<Record>, d: nat, a: seq<Item>, b: seq<Item>)
    requires cs != []
    requires NodeFacts(recs, cs[0], d, a)
    requires ForestFacts(recs, cs[1..], d, b)
    ensures (a + b)[0] == Item(cs[0], d)
    ensures forall j :: 0 <= j < |a + b| ==> (a + b)[j].depth >= d
    ensures forall j :: 0 <= j < |a + b| && (a + b)[j].depth == d ==> (a + b)[j].rec in cs
    ensures forall j :: 0 <= j < |a + b| ==> Placed(recs, (a + b)[j])
    ensures forall j :: 0 <= j < |a + b| ==> BelowSome(recs, (a + b)[j], d, cs)
  {
    var w := a + b;
    forall j | |a| <= j < |w| ensures w[j] == b[j - |a|] { }
    assert cs[0] in cs;
    assert Ids(cs[1..]) <= Ids(cs);
  }

  lemma ForestLinked(a: seq<Item>, b: seq<Item>, d: nat)
    requires |a| > 0 && a[0].depth == d
    requires ParentsFirst(a, d) && ParentsFirst(b, d)
    ensures ParentsFirst(a + b, d)
  {
    var w := a + b;
    forall j | 0 <= j < |w| && w[j].depth > d ensures exists i :: 0 <= i < j && LinkedTo(w, i, j) {
      if j < |a| {
        assert w[j] == a[j];
        var i :| 0 <= i < j && LinkedTo(a, i, j);
        LinkedPrefix(a, b, i, j);
        assert 0 <= i < j && LinkedTo(w, i, j);
      } else {
        var j' := j - |a|;
        assert w[j] == b[j'];
        var i :| 0 <= i < j' && LinkedTo(b, i, j');
        LinkedShift(a, b, i, j');
        assert 0 <= |a| + i < j && LinkedTo(w, |a| + i, j);
      }
    }
  }

  lemma ForestSiblings(cs: seq<Record>, d: nat, a: seq<Item>, b: seq<Item>)
    requires cs != [] && Sorted(ByCreation, cs)
    requires |a| > 0 && a[0] == Item(cs[0], d)
    requires forall j :: 0 < j < |a| ==> a[j].depth > d
    requires |b| > 0 ==> b[0].depth == d
    requires forall j :: 0 <= j < |b| ==> b[j].depth >= d
    requires forall j :: 0 <= j < |b| && b[j].depth == d ==> b[j].rec in cs[1..]
    requires SiblingsOrdered(a, d) && SiblingsOrdered(b, d)
    ensures SiblingsOrdered(a + b, d)
  {
    var w := a + b;
    forall i, j | 0 <= i < j < |w| && SameLevel(w, i, j)
      ensures KeyLe(ByCreation, w[i].rec, w[j].rec)
      ensures w[i].depth > d ==> w[i].rec.parentId == w[j].rec.parentId
    {
      if j < |a| {
        assert w[i] == a[i] && w[j] == a[j];
        forall m | i < m < j ensures a[m].depth >= a[i].depth {
          assert w[m] == a[m];
        }
        assert SameLevel(a, i, j);
      } else if i >= |a| {
        var i', j' := i - |a|, j - |a|;
        assert w[i] == b[i'] && w[j] == b[j'];
        forall m | i' < m < j' ensures b[m].depth >= b[i'].depth {
          assert w[m + |a|] == b[m];
        }
        assert SameLevel(b, i', j');
      } else {
        assert w[|a|] == b[0];
        assert w[i] == a[i];
        assert w[j] == b[j - |a|];
        if j > |a| {
          assert w[|a|].depth >= w[i].depth;
        }
        assert w[i].depth == d;
        assert i == 0;
        var k :| 0 <= k < |cs[1..]| && cs[1..][k] == w[j].rec;
        assert cs[k + 1] == w[j].rec;
      }
    }
  }

  lemma HeadIdFresh(cs: seq<Record>)
    requires cs != [] && DistinctIds(cs)
    ensures cs[0].id !in Ids(cs[1..])
  {
    forall c | c in cs[1..] ensures c.id != cs[0].id {
      var k :| 0 <= k < |cs[1..]| && cs[1..][k] == c;
      assert cs[k + 1] == c;
    }
  }

  lemma ForestNoRepeats(recs: seq<Record>, cs: seq<Record>, d: nat, a: seq<Item>, b: seq<Item>)
    requires cs != [] && DistinctIds(cs)
    requires forall j :: 0 <= j < |a| ==> Placed(recs, a[j]) && Below(recs, a[j], d, cs[0].id)
    requires forall j :: 0 <= j < |b| ==> Placed(recs, b[j]) && BelowSome(recs, b[j], d, cs[1..])
    requires NoRepeats(a) && NoRepeats(b)
    ensures NoRepeats(a + b)
  {
    var w := a + b;
    HeadIdFresh(cs);
    forall i, j | 0 <= i < j < |w| ensures w[i].rec != w[j].rec {
      if j < |a| {
        assert w[i] == a[i] && w[j] == a[j];
      } else if i >= |a| {
        assert w[i] == b[i - |a|] && w[j] == b[j - |a|];
      } else {
        var x, y := a[i], b[j - |a|];
        assert w[i] == x && w[j] == y;
        if x.depth < y.depth {
          RootAtUnique(recs, x.rec.id, x.depth, y.depth);
        } else if y.depth < x.depth {
          RootAtUnique(recs, y.rec.id, y.depth, x.depth);
        } else {
          assert Anc(ParentMap(recs), Some(x.rec.id), x.depth - d) != Anc(ParentMap(recs), Some(y.rec.id), y.depth - d);
        }
      }
    }
  }
}

=== FILE: wrappers.dfy ===
/** The optional-value datatype used for Python's `None`-able fields. */
module Wrappers {

  datatype Option<+T> = None | Some(value: T)
}
